=== FILE: README.md ===
# SmartKopa dashboard aggregations in Dafny

This project models the logic behind the SmartKopa credit dashboard. SmartKopa is a loan-officer front end over two tables: `credit_applications` and `ml_application_scores`. The model covers the four dashboard widgets and the application frame around them:

- **StatsGrid**: six statistic cards. Each compares this month's figures with the previous month's. The comparison is written as a signed percentage ("+12%", "-3%", "0%") plus an up/down arrow.
- **RecentApplications**: the five newest applications. Each row carries:
  - the score of its latest score row, none when that row's score is null;
  - a risk badge;
  - a status badge;
  - the borrower's name and avatar initials.
- **RiskDistribution**: a pie chart of the last 30 days. It keeps one score per application and counts the scores into four risk buckets. The score kept is the latest one whenever equal scores of an application share a timestamp; otherwise it can be an older one (see below). The counts are shown as rounded percentages.
- **ScoreTrends**: a line chart of the current year. It keeps the latest score per application, groups those scores by calendar month, and shows each month's two-decimal average and count.
- **AppSidebar** and **AppLayout**: the role-gated navigation sections, and the header with the user's name, role label and initials.

RecentApplications and ScoreTrends share a "latest score per application" fold, which `LatestScore.LatestBy` models. It is related to a reference definition, `LatestScore.IsLatest`: the kept row is the first row of greatest timestamp among the application's kept rows. RiskDistribution has a fold of its own, `RiskDistribution.RiskFold`. That fold agrees with `LatestBy` only when equal scores of one application share a timestamp. StatsGrid does not fold at all: it averages every score row in the month's window.

Modules follow the program's structure:

| Module | Contents |
|---|---|
| `Js` | nullable values, query responses, `Math.round`, sums and means |
| `Seqs` | `filter` and `findIndex` |
| `Text` | `split`, `trim`, `toUpperCase`, numerals |
| `Records` | the table rows |
| `LatestScore` | the shared fold |
| `StatsGrid`, `RecentApplications`, `RiskDistribution`, `ScoreTrends`, `AppSidebar`, `AppLayout` | one module per component |

Modelling choices:

- **Queries.** Every query result is a `Js.Response`: rows, `NoRows` (null data without an error), `Errored`, or `Rejected` (the promise throws).
- **Widget states.** A widget's state is `Js.Loadable`. An exception that escapes a `useEffect` handler (RecentApplications, RiskDistribution, ScoreTrends) leaves the widget in `Loading`.
- **Timestamps.** A timestamp is an integer. The calendar month of a score row is a field of the row.
- **Missing text.** A missing text value (`null`, `undefined`) is the empty string, which JavaScript also treats as falsy.

## Model

| member | source | states |
|---|---|---|
| LatestScore.LatestByIsLatest | frontend/src/components/dashboard/ScoreTrends.tsx:31-39 | The map-based fold resolves an application exactly when one of its rows passes the skip test. The stored row is that application's newest such row; among equally new rows, the first one in response order is kept. |
| LatestScore.Step | frontend/src/components/dashboard/RecentApplications.tsx:111-118 | A kept row is stored under its id when the id is new or the row is strictly newer than the stored one. A skipped row changes nothing, and no other application's entry changes. |
| LatestScore.LatestBy | frontend/src/components/dashboard/ScoreTrends.tsx:32-39 | Every stored row is a kept row of the response, stored under its own application id. |
| LatestScore.FirstKept | frontend/src/components/dashboard/ScoreTrends.tsx:33-38 | The index of an application's first kept row, where the `Map` first inserts the id. It is -1 exactly when the application has no kept row. |
| LatestScore.FirstSeenIdsInOrder | frontend/src/components/dashboard/ScoreTrends.tsx:43 | The map's iteration order follows first insertion: earlier ids have earlier first kept rows. |
| LatestScore.LatestKey | frontend/src/components/dashboard/RecentApplications.tsx:111-118 | An application ends up in the score map if and only if some row of it passes the skip test. |
| LatestScore.LatestRow | frontend/src/components/dashboard/RecentApplications.tsx:111-118 | For a resolved application, the map holds its first row of greatest timestamp. |
| LatestScore.IsLatestUnique | frontend/src/components/dashboard/ScoreTrends.tsx:31-39 | The reference "latest row" of an application is unique, so the fold's answer is determined. |
| LatestScore.LatestIsNewest | frontend/src/components/dashboard/ScoreTrends.tsx:35-38 | No kept row of an application is newer than the row the map stores for it. |
| LatestScore.InsertOlderRow | frontend/src/components/dashboard/RecentApplications.tsx:114-117 | Inserting, at any position, a row that is skipped or strictly older than its application's stored row leaves the map unchanged. |
| LatestScore.AppendOlderRow | frontend/src/components/dashboard/ScoreTrends.tsx:35-38 | Appending a row that is no newer than the stored row changes neither the map nor its iteration order (`>` keeps the first of equal timestamps). |
| LatestScore.LatestKeysInOrder | frontend/src/components/dashboard/ScoreTrends.tsx:33-43 | The map's keys are exactly the first-seen ids, each once. They are ordered by the index of each id's first kept row, which is where the `Map` first inserts the id. |
| LatestScore.LatestOfFiltered | frontend/src/components/dashboard/RecentApplications.tsx:106-117 | Filtering rows with `.in(...)` before the fold gives the same map as skipping them inside the fold. |
| LatestScore.LatestAgreeOn | frontend/src/components/dashboard/RecentApplications.tsx:111-118 | Whether, and how, an application is resolved depends only on which of its own rows are kept. |
| LatestScore.Resolved | frontend/src/components/dashboard/ScoreTrends.tsx:43-47 | `map.forEach` visits every resolved application once, in insertion order, and yields its stored row. |
| Js.Round2 | frontend/src/components/dashboard/ScoreTrends.tsx:54 | `Math.round(x * 100) / 100` is a whole number of hundredths within 0.005 of `x`, halves going up. |
| Js.Round2Unique | frontend/src/components/dashboard/ScoreTrends.tsx:54 | Any whole number of hundredths in `(x - 0.005, x + 0.005]` is `Round2(x)`, so the two clauses of `Round2` pin its value. |
| Js.JsRound | frontend/src/components/dashboard/RiskDistribution.tsx:65 | `Math.round` returns the integer within half a unit of its argument, taking halves upward. |
| Js.JsRoundUnique | frontend/src/components/dashboard/StatsGrid.tsx:222 | Exactly one integer satisfies the `Math.round` bound, so the bound characterises the result. |
| Js.JsRoundMonotone | frontend/src/components/dashboard/StatsGrid.tsx:277-280 | Rounding preserves order. |
| Js.Round2Monotone | frontend/src/components/dashboard/StatsGrid.tsx:150 | Rounding to two decimals preserves order. |
| Js.MeanRounded | frontend/src/components/dashboard/StatsGrid.tsx:149-151 | The average is a whole number of hundredths, and 0 for no scores. Otherwise it lies between the least and the greatest score and within 0.005 of the exact mean. |
| Js.RoundedShareBounds | frontend/src/components/dashboard/StatsGrid.tsx:272 | A part's rounded percentage of a non-empty whole lies between 0 and 100. |
| Js.MeanRoundedOfWhole | frontend/src/components/dashboard/ScoreTrends.tsx:54 | Scores whose sum is a whole multiple of their count average to exactly that number. |
| Js.SumBounds | frontend/src/components/dashboard/ScoreTrends.tsx:54 | The sum of scores that all lie in [lo, hi] lies between count·lo and count·hi. |
| Seqs.Filter | frontend/src/components/dashboard/RecentApplications.tsx:176 | `filter` keeps exactly the elements that pass the test, taken from the input and never more of them. |
| Seqs.FilterAppend | frontend/src/components/dashboard/RecentApplications.tsx:176 | Filtering a concatenation filters each part and concatenates the results, so the kept elements stay in input order with their multiplicity. |
| Seqs.FilterFilter | frontend/src/components/dashboard/StatsGrid.tsx:153 | Filtering approved rows out of a window equals one filter on both conditions. |
| Seqs.DisjointFilters | frontend/src/components/dashboard/StatsGrid.tsx:115-125 | Two predicates that never hold together select at most as many rows as there are. |
| Seqs.FindIndex | frontend/src/components/dashboard/RiskDistribution.tsx:57-59 | `findIndex` returns the first index whose element matches, and -1 (None) only when none matches. |
| StatsGrid.PercentChange | frontend/src/components/dashboard/StatsGrid.tsx:218-226 | The change is always a well-formed "0%", "+n%" or "-n%" (never "+0%"). With no previous value it is "+100%", or "0%" when the current value is also 0. Otherwise it is the nearest whole percent of the change relative to the absolute previous value; "+" only when the value grew and "-" only when it shrank. |
| StatsGrid.RenderParses | frontend/src/components/dashboard/StatsGrid.tsx:223-225 | Every well-formed change renders to a text that reads back as the same change. |
| StatsGrid.Render | frontend/src/components/dashboard/StatsGrid.tsx:223-225 | The text ends in "%" and starts with "+" exactly for a rise and with "-" exactly for a fall. It is "0%" exactly for no change, and otherwise the sign is followed by the magnitude's numeral. |
| StatsGrid.RelativeChangeSign | frontend/src/components/dashboard/StatsGrid.tsx:220-222 | The relative change is positive exactly when the value grew and negative exactly when it shrank, whatever the sign of the previous value. |
| StatsGrid.PercentChangeExamples | frontend/src/components/dashboard/StatsGrid.tsx:218-226 | 0→0 shows "0%", 0→5 shows "+100%", 5→0 shows "-100%", 100→150 shows "+50%" and 100→50 shows "-50%". |
| StatsGrid.TrendOf | frontend/src/components/dashboard/StatsGrid.tsx:234 | The arrow points up exactly when the current figure is strictly greater; equal figures point down. |
| StatsGrid.ChangeAgreesWithTrend | frontend/src/components/dashboard/StatsGrid.tsx:233-234 | For non-negative figures, a "+" change always comes with an up arrow and a "-" change with a down arrow. |
| StatsGrid.FormatMoney | frontend/src/components/dashboard/StatsGrid.tsx:70-76 | A zero amount shows "KSh 0". The B, M and K suffixes are used exactly for amounts of at least 10^9, at least 10^6 and at least 10^3. The scaled magnitude times the unit gives back the amount. Scaled M and K values lie in [1, 1000). |
| StatsGrid.ScoreValues | frontend/src/components/dashboard/StatsGrid.tsx:148 | The numeric scores of a window, one per scored row, in row order: the k-th value is the score of the k-th scored row. |
| StatsGrid.ApprovedVolumeIsApprovedLoanSum | frontend/src/components/dashboard/StatsGrid.tsx:185-187 | Last month's approved volume equals the loan sum of last month's approved applications alone. |
| StatsGrid.WindowsDisjoint | frontend/src/components/dashboard/StatsGrid.tsx:134-138 | No score or application falls in both this month's and last month's window. |
| StatsGrid.ComputeStats | frontend/src/components/dashboard/StatsGrid.tsx:96-207 | A rejected query ends in the "Failed to load stats" branch, and only a rejected one does. The total is the number of application rows; approved-today counts the approved rows created since the start of the day; pending counts the pending rows; each month's total counts the rows created in that month. Approvals never exceed the applications of their month. The two month windows and the approved-today and pending counts never exceed the total. Last month's volume is the loan sum of last month's approved applications. A missing result counts as no rows. |
| StatsGrid.MonthApprovals | frontend/src/components/dashboard/StatsGrid.tsx:153-183 | Each month's approvals are the applications created in that month with status "approved". |
| StatsGrid.AverageScoreBounds | frontend/src/components/dashboard/StatsGrid.tsx:148-151 | Each month's average is a whole number of hundredths, and 0 without scores. Otherwise it is within 0.005 of the exact mean of that month's numeric scores, and between the lowest and the highest of them. |
| StatsGrid.SuccessRate | frontend/src/components/dashboard/StatsGrid.tsx:270-274 | The success rate is shown exactly when this month has applications. It is then this month's approval percentage rounded to the nearest whole number, which lies between 0 and 100. |
| StatsGrid.SuccessRateChange | frontend/src/components/dashboard/StatsGrid.tsx:275-282 | With no applications last month, the success-rate change is "0%". Otherwise it is the percentage change between this month's and last month's approval rates, each first rounded to a whole percent. |
| StatsGrid.AverageScoreShown | frontend/src/components/dashboard/StatsGrid.tsx:255 | A zero average shows "—"; any other average is shown as it is. |
| StatsGrid.Cards | frontend/src/components/dashboard/StatsGrid.tsx:228-297 | Six cards with distinct titles, in display order: Total Applications, Approved Today, Pending Review, Average Score, Loan Volume, Success Rate. |
| StatsGrid.TotalCard | frontend/src/components/dashboard/StatsGrid.tsx:230-236 | "Total Applications" shows the percentage change from last month's application count to this month's, so "+100%" after an empty month. It points up exactly when this month has more applications than last month. |
| StatsGrid.ApprovedCard | frontend/src/components/dashboard/StatsGrid.tsx:237-244 | "Approved Today" shows the percentage change from last month's approvals to this month's. It points up exactly when this month has more approvals than last month. |
| StatsGrid.PendingCard | frontend/src/components/dashboard/StatsGrid.tsx:245-252 | "Pending Review" always shows "0%" with an up arrow. |
| StatsGrid.AverageCard | frontend/src/components/dashboard/StatsGrid.tsx:253-259 | "Average Score" shows the percentage change from last month's average score to this month's. It points up exactly when this month's average exceeds last month's. |
| StatsGrid.LoanVolumeCard | frontend/src/components/dashboard/StatsGrid.tsx:260-267 | "Loan Volume" shows the percentage change from last month's approved volume to the all-time loan sum. It points up exactly when the all-time sum exceeds last month's approved volume. |
| StatsGrid.SuccessCard | frontend/src/components/dashboard/StatsGrid.tsx:268-288 | "Success Rate" points up exactly when this month's approval ratio exceeds last month's; its change is the success-rate change: "0%" when last month had no applications. |
| StatsGrid.CardsAgree | frontend/src/components/dashboard/StatsGrid.tsx:228-297 | On each of the six cards the change text is well formed. For non-negative figures, "+" never comes with a down arrow and "-" never with an up arrow. The pending card always reads "0%" with an up arrow. |
| StatsGrid.SuccessCardAgrees | frontend/src/components/dashboard/StatsGrid.tsx:275-288 | The success-rate card compares rounded percentages but draws its arrow from the exact ratios; its sign still never contradicts the arrow. |
| StatsGrid.LoanVolumeCardUsesAllTimeSum | frontend/src/components/dashboard/StatsGrid.tsx:260-267 | With no approvals last month and any recorded loan amount, the Loan Volume card reads "+100%" with an up arrow: it compares the all-time sum with last month's approved volume. |
| StatsGrid.LoanVolumeOfRows | frontend/src/components/dashboard/StatsGrid.tsx:110-112 | The loan volume shown is the sum of every application's amount, missing amounts counting 0. |
| RecentApplications.RiskOf | frontend/src/components/dashboard/RecentApplications.tsx:11-17 | The risk level is unknown exactly without a score; low exactly for scores from 80 up (no upper bound); moderate for 60–79; high for 40–59; very high below 40. |
| RecentApplications.RiskMonotone | frontend/src/components/dashboard/RecentApplications.tsx:11-17 | A higher score never gives a more severe risk level. |
| RecentApplications.RiskBadge | frontend/src/components/dashboard/RecentApplications.tsx:18-39 | An unscored badge reads "Not Scored". A scored badge is the level's label, then " (", the score's numeral, then ")". |
| RecentApplications.RiskBadgeInjective | frontend/src/components/dashboard/RecentApplications.tsx:33-37 | The badge text determines the score: different scores, or a score and no score, never show the same text. |
| RecentApplications.StatusLabel | frontend/src/components/dashboard/RecentApplications.tsx:40-51 | The status badge is the status with only its first character upper-cased; a missing status shows nothing. |
| RecentApplications.StatusLabels | frontend/src/components/dashboard/RecentApplications.tsx:48 | The three statuses show as "Pending", "Approved" and "Rejected", and a missing status shows nothing. |
| RecentApplications.BorrowerName | frontend/src/components/dashboard/RecentApplications.tsx:162-165 | With no borrower, or neither name part, the name is "Unknown". Otherwise it is "first last" with the surrounding white space trimmed. |
| RecentApplications.BorrowerNameOfTrimmed | frontend/src/components/dashboard/RecentApplications.tsx:162-165 | Names stored without surrounding white space show as "first last", or as the one part that is present. |
| RecentApplications.ShownName | frontend/src/components/dashboard/RecentApplications.tsx:183 | An empty name shows "Unknown"; any other name is shown unchanged. |
| Text.InitialsOfWords | frontend/src/components/dashboard/RecentApplications.tsx:174-177 | Splitting on spaces, dropping empty pieces and taking each first character gives exactly the characters that start a word. |
| RecentApplications.AvatarText | frontend/src/components/dashboard/RecentApplications.tsx:174-178 | The avatar shows the first character of every space-separated word, or "?" when there is none. |
| RecentApplications.AvatarOfTwoWords | frontend/src/components/dashboard/RecentApplications.tsx:174-178 | A name of two space-free words shows their two first characters. |
| RecentApplications.AppIds | frontend/src/components/dashboard/RecentApplications.tsx:96-98 | The collected ids are exactly the non-empty ids of the application rows. |
| RecentApplications.ScoreMap | frontend/src/components/dashboard/RecentApplications.tsx:100-119 | Without ids no score is looked up. Every entry is a returned score row of a collected id. |
| RecentApplications.Merge | frontend/src/components/dashboard/RecentApplications.tsx:122-131 | Every application row is kept, in order. One without an id, or without a score, gets a null score and risk level. |
| RecentApplications.Fetch | frontend/src/components/dashboard/RecentApplications.tsx:69-135 | A missing or failed application result shows no rows. A rejected request leaves the widget loading. Otherwise every application row is shown, in order. |
| RecentApplications.ScoreMapAt | frontend/src/components/dashboard/RecentApplications.tsx:105-118 | For a collected id, the widget's map agrees with the shared fold over the whole score response. |
| RecentApplications.RecentScoreIsLatest | frontend/src/components/dashboard/RecentApplications.tsx:111-128 | An application with scores shows the score and risk level of its latest score row, even when that row's score is null; an application without scores shows none. |
| RecentApplications.MergeAt | frontend/src/components/dashboard/RecentApplications.tsx:123-129 | A row with a score in the map shows that score and risk level. |
| RecentApplications.NullScoreHidesEarlierScore | frontend/src/components/dashboard/RecentApplications.tsx:113-128 | For any application scored once and later re-scored without a score, the row shows no score and the badge reads "Not Scored". |
| RiskDistribution.FindBucket | frontend/src/components/dashboard/RiskDistribution.tsx:57-60 | A score is counted in the first bucket whose bounds contain it, or in none. |
| RiskDistribution.BucketsPartition | frontend/src/components/dashboard/RiskDistribution.tsx:6-11 | The four buckets are pairwise disjoint. Together they cover every score up to 100 and no score above it. |
| RiskDistribution.BucketsAgreeWithRiskLevels | frontend/src/components/dashboard/RiskDistribution.tsx:6-11 | Up to 100, a score's bucket is the recent-applications risk level of that score. Above 100 the pie drops the score while the badge still says low. |
| RiskDistribution.RiskFold | frontend/src/components/dashboard/RiskDistribution.tsx:38-51 | Every stored score is non-zero and belongs to an application with an id. |
| RiskDistribution.RiskStep | frontend/src/components/dashboard/RiskDistribution.tsx:40-50 | A skipped row changes nothing. A truthy row is stored when its id is new; otherwise its entry either takes the row's score or keeps the old one. No other entry changes. |
| RiskDistribution.RiskLatest | frontend/src/components/dashboard/RiskDistribution.tsx:37-51 | The widget's map holds exactly the applications with a truthy row, each with a non-zero score. |
| RiskDistribution.RiskFoldKeys | frontend/src/components/dashboard/RiskDistribution.tsx:39-51 | An application is in the map exactly when it has a row with an id and a non-zero score. |
| RiskDistribution.RiskFoldIsLatest | frontend/src/components/dashboard/RiskDistribution.tsx:39-51 | When equal scores of one application share a timestamp, the by-score search finds the stored row's time. The fold then agrees with the shared latest-row fold. |
| RiskDistribution.RiskLatestIsLatest | frontend/src/components/dashboard/RiskDistribution.tsx:37-51 | Under that condition, the stored score of every application is that of its latest truthy row. |
| RiskDistribution.DistinctScoresShareTime | frontend/src/components/dashboard/RiskDistribution.tsx:42-44 | The condition holds when no application repeats a score. |
| RiskDistribution.RepeatedScoreKeepsOlderScore | frontend/src/components/dashboard/RiskDistribution.tsx:41-48 | Without the condition the fold can keep a score that is not the latest. Take scores x at t0, x again at t1, and y ≠ x at t2, with t0 < t2 < t1. The map stores y, while the latest row is the second x (for example 50@1, 50@10, 70@5 stores 70). |
| RiskDistribution.LatestScores | frontend/src/components/dashboard/RiskDistribution.tsx:55 | `forEach` over the map yields, for each resolved application in insertion order, the score stored for it. |
| RiskDistribution.CountsAreFilters | frontend/src/components/dashboard/RiskDistribution.tsx:54-61 | Each bucket's count is the number of scores that fall in it. |
| RiskDistribution.TotalIsBucketed | frontend/src/components/dashboard/RiskDistribution.tsx:62 | The total counts every score that found a bucket, which is every score up to 100. |
| RiskDistribution.Tally | frontend/src/components/dashboard/RiskDistribution.tsx:57-60 | A score that finds a bucket adds one to that bucket's count only. A score that finds none changes no count. |
| RiskDistribution.Counts | frontend/src/components/dashboard/RiskDistribution.tsx:54-61 | Four counts that together never exceed the number of scores. |
| RiskDistribution.Percent | frontend/src/components/dashboard/RiskDistribution.tsx:65 | With no scores every share is 0. Otherwise a share is the count's percentage of the total, rounded to the nearest whole number, and lies in 0..100. |
| RiskDistribution.Pie | frontend/src/components/dashboard/RiskDistribution.tsx:63-67 | Four entries, in bucket order, each with its bucket's name and share. |
| RiskDistribution.PieSum | frontend/src/components/dashboard/RiskDistribution.tsx:62-67 | With a non-zero total the four rounded shares add up to between 99 and 102; with a zero total they are all 0. |
| RiskDistribution.PieOf | frontend/src/components/dashboard/RiskDistribution.tsx:54-67 | For any list of scores, the pie has one entry per bucket, named after it. Entry k is bucket k's rounded share of the scores that found a bucket, 0 when none did, and lies in 0..100. |
| RiskDistribution.Distribution | frontend/src/components/dashboard/RiskDistribution.tsx:37-67 | Entry k is named after bucket k. Its value is bucket k's rounded share of the stored scores that found a bucket, 0 when none did, and lies in 0..100. |
| RiskDistribution.Fetch | frontend/src/components/dashboard/RiskDistribution.tsx:20-70 | An error leaves the data null. Null rows without an error give four zero shares. A rejected request keeps the widget loading. Rows give the distribution of the last 30 days. |
| RiskDistribution.Shown | frontend/src/components/dashboard/RiskDistribution.tsx:89 | Until data arrives, or after an error, the chart shows the four buckets at 0. |
| RiskDistribution.ShownNames | frontend/src/components/dashboard/RiskDistribution.tsx:120-131 | Whatever the response, the legend lists the four bucket names in order. |
| ScoreTrends.ZeroScoreIsKept | frontend/src/components/dashboard/ScoreTrends.tsx:34 | A row with an id and a score of 0 passes the trend chart's null test. |
| ScoreTrends.TrendLatest | frontend/src/components/dashboard/ScoreTrends.tsx:31-39 | An application with an id and a non-null score keeps its latest such row. |
| ScoreTrends.RowOf | frontend/src/components/dashboard/ScoreTrends.tsx:50-56 | A month row is named after its month and counts the month's kept scores. Its average is a whole number of hundredths, and 0 without scores; otherwise it lies between the month's lowest and highest score and within 0.005 of their mean. |
| ScoreTrends.ActiveMonths | frontend/src/components/dashboard/ScoreTrends.tsx:42-47 | The months that hold a kept row, in increasing order, each once. |
| ScoreTrends.ChartRowsAreActiveMonths | frontend/src/components/dashboard/ScoreTrends.tsx:50-57 | Dropping the empty rows leaves exactly the rows of the active months, in calendar order. |
| ScoreTrends.ChartRows | frontend/src/components/dashboard/ScoreTrends.tsx:50-57 | At most twelve rows, each with at least one application. |
| ScoreTrends.ChartShape | frontend/src/components/dashboard/ScoreTrends.tsx:50-57 | The chart has at most twelve rows. Each has at least one application, months appear in calendar order, and no month appears twice. |
| ScoreTrends.ApplicationsAddUp | frontend/src/components/dashboard/ScoreTrends.tsx:43-57 | The month counts add up to the number of kept applications. |
| ScoreTrends.Series | frontend/src/components/dashboard/ScoreTrends.tsx:31-57 | The chart of a response has at most twelve points, and its counts add up to the number of distinct applications with an id and a score. |
| ScoreTrends.Fetch | frontend/src/components/dashboard/ScoreTrends.tsx:13-61 | An error or a missing result gives an empty chart. A rejected request keeps the widget loading. Rows give the chart of this year's scores. |
| ScoreTrends.OlderRowChangesNothing | frontend/src/components/dashboard/ScoreTrends.tsx:35-38 | Appending a row that is skipped, or no newer than its application's kept row, leaves the chart unchanged. |
| ScoreTrends.JanuaryAndMarch | frontend/src/components/dashboard/ScoreTrends.tsx:50-57 | Scores 70 and 90 in January and 80 in March give exactly two points: January averaging 80 over 2 and March averaging 80 over 1. |
| AppSidebar.SectionVisibility | frontend/src/components/layout/AppSidebar.tsx:40-107 | Everyone sees the core section. The management section is shown exactly to credit managers and administrators. The administration section is shown exactly to administrators. |
| AppSidebar.Sections | frontend/src/components/layout/AppSidebar.tsx:44-107 | One to three sections, the core section first. |
| AppSidebar.HasAccess | frontend/src/components/layout/AppSidebar.tsx:40-42 | A section is open exactly when the role is set and is among the allowed ones; a missing role is never let in. |
| AppSidebar.OthersSeeOnlyCore | frontend/src/components/layout/AppSidebar.tsx:47-68 | Without a role, or with any role but credit manager or administrator, only the core section is shown. |
| AppSidebar.Links | frontend/src/components/layout/AppSidebar.tsx:14-28 | A role sees 3, 5 or 7 links, the three core links first. |
| AppSidebar.LinksMonotone | frontend/src/components/layout/AppSidebar.tsx:68-89 | A credit manager sees every link a loan officer sees, and an administrator every link a credit manager sees. |
| AppSidebar.LinksDistinct | frontend/src/components/layout/AppSidebar.tsx:14-28 | No role is shown the same destination twice. |
| AppLayout.RoleDisplayName | frontend/src/components/layout/AppLayout.tsx:15-26 | The three known roles get their labels; "User" is shown exactly for every other role and for no role. |
| AppLayout.RoleLabelsDistinct | frontend/src/components/layout/AppLayout.tsx:15-26 | The three known roles get three different labels. |
| AppLayout.Initials | frontend/src/components/layout/AppLayout.tsx:28-35 | The initials are the upper-cased first characters of the space-separated words, at most two. |
| AppLayout.TakeTwo | frontend/src/components/layout/AppLayout.tsx:34 | `slice(0, 2)` keeps the first two characters, or the whole text when it is shorter. |
| AppLayout.TwoWordInitials | frontend/src/components/layout/AppLayout.tsx:28-35 | A two-word name shows both words' first characters, upper-cased. |
| AppLayout.BlankNameInitials | frontend/src/components/layout/AppLayout.tsx:28-35 | A name of one space is used as it is and shows no initials. |
| AppLayout.NameOr | frontend/src/components/layout/AppLayout.tsx:60 | The header uses the full name when present, else the e-mail address, else the fallback. |
| AppLayout.HeaderFallbacks | frontend/src/components/layout/AppLayout.tsx:60-68 | With neither name nor e-mail, the header reads "User" and the avatar "U". With only an e-mail, the avatar shows its first character upper-cased. |
| AppLayout.HeaderOf | frontend/src/components/layout/AppLayout.tsx:59-69 | The header shows the full name, else the e-mail, else "User". Its avatar holds the initials of the full name, else of the e-mail, else of "U", at most two characters. Its role line is the role's label. |
| Text.SplitHeads | frontend/src/components/layout/AppLayout.tsx:29-32 | The first characters of the pieces of `split(" ")` are exactly the non-space characters that follow a space or start the text. |
| Text.Split | frontend/src/components/layout/AppLayout.tsx:30 | `split(" ")` gives one piece more than there are spaces, and no piece contains a space. |
| Text.SplitJoin | frontend/src/components/layout/AppLayout.tsx:30 | Joining the pieces of `split(" ")` with single spaces gives the text back. |
| Text.Upper | frontend/src/components/layout/AppLayout.tsx:33 | The model's `toUpperCase` maps each character on its own, upper-casing the ASCII letters only, and so keeps the length. |
| Text.Capitalize | frontend/src/components/dashboard/RecentApplications.tsx:48 | The first character is upper-cased and the rest is unchanged; the empty text stays empty. |
| Text.HeadsOfNonEmpty | frontend/src/components/dashboard/RecentApplications.tsx:174-177 | Dropping empty words before taking first characters gives the same initials as skipping them. |
| Text.Trim | frontend/src/components/dashboard/RecentApplications.tsx:164 | `trim` removes exactly the leading and trailing white space. |
| Text.TrimIdempotent | frontend/src/components/dashboard/RecentApplications.tsx:164 | Trimming an already trimmed name changes nothing. |
| Text.TrimJoined | frontend/src/components/dashboard/RecentApplications.tsx:164 | Trimming "first last" built from trimmed parts gives both parts joined by one space, or the one that is present. |
| Text.NatToString | frontend/src/components/dashboard/RecentApplications.tsx:36 | A whole number prints as a non-empty run of digits, with a leading "0" only for zero itself. |
| Text.IntToString | frontend/src/components/dashboard/RecentApplications.tsx:36 | A negative score prints as "-" and its magnitude; any other prints as its digits. |
| Text.ParseNatToString | frontend/src/components/dashboard/RecentApplications.tsx:36 | A rendered whole number reads back as itself. |
| Text.IntToStringInjective | frontend/src/components/dashboard/RecentApplications.tsx:36 | Different scores render to different texts. |
| Text.CapitalizeIdempotent | frontend/src/components/dashboard/RecentApplications.tsx:48 | Capitalising a label twice is the same as capitalising it once. |

## Notable behaviours of the code

The model follows the code in each case:

- **Scores in Recent Applications.** The code's own comment reads "Fetch the latest score per app" (RecentApplications.tsx:95). The fold keeps the latest row even when its score is null, so a newer unscored row hides an older score (`RecentApplications.NullScoreHidesEarlierScore`).
- **Ties.** Equal timestamps keep the first row seen, because the comparison is strictly `>`.
- **Risk Distribution's "latest" score.** The fold looks up the stored score's row by value (`find` over the whole response), not by position. It therefore returns the latest score only when equal scores of one application share a timestamp (`RiskDistribution.RiskLatestIsLatest`). `RiskDistribution.RepeatedScoreKeepsOlderScore` shows the input where it keeps an older score. The model keeps this behaviour as written.
- **Risk Distribution skips zero scores.** `!row.credit_score` skips a score of 0. The trend chart keeps it (`credit_score == null` is its test).
- **Scores above 100.** A score above 100 finds no bucket and is dropped from the pie. The recent-applications badge still calls it low risk.
- **Loan Volume card.** The card compares the all-time loan sum with last month's approved volume. This month's approved volume is computed but never used.
- **"Approved Today" card.** The card shows today's approvals, but its change compares this month's approvals with last month's.
- **The `(base || 1)` guard** in `percentChange` is unreachable, because a zero previous value returns early.

## Left out

- Supabase I/O and `Promise.all`: each query becomes a `Response` parameter. Queries that read the same table read one snapshot.
- Date parsing, `toISOString` and time zones: instants are integers, and a score's calendar month is a field of the row. The component's "now", today's midnight and the month starts are a `StatsGrid.Clock` parameter.
- The `row.scored_at &&` test in StatsGrid's window filters: every modelled score row has a timestamp.
- `toFixed`, `toLocaleString` and other float text: StatsGrid.FormatMoney returns the unit and the scaled magnitude rather than the digits shown. Real numbers stand in for doubles; NaN and floating-point rounding are not modelled.
- StatsGrid.PercentChange: the change is a datatype rendered as "+n%"/"-n%"/"0%", and JavaScript number-to-text conversion is not modelled.
- Text.UpperChar: `toUpperCase` maps only the ASCII letters here. Other scripts are left unchanged rather than upper-cased, and full Unicode case mapping, which can change the length ("ß" becomes "SS", so `getInitials("ßa b")` is "SS" in the browser but "ßb" here), is not modelled.
- Text.Split, Text.Capitalize, AppLayout.TakeTwo and AppLayout.Initials: a string is a sequence of Unicode characters, while JavaScript indexes and slices UTF-16 code units. For a name or status that starts with a character outside the Basic Multilingual Plane (an emoji, say), `word[0]`, `n[0]`, `charAt(0)` and `slice(0, 2)` take half of a surrogate pair in the browser but the whole character here.
- `.order("created_at").limit(5)`: the application rows are given already ordered and limited.
- JSX layout, colours, icons, badge variants and `NavLink`'s `end` flag and active styling: presentation only.
- The relative "submitted" time (`formatDistanceToNow`) and the loan amount text of a recent application: date and number formatting.
- `prevMonthEnd` and `loanVolumeMonth` in StatsGrid: computed but unused by the component.
- The sign-out button and `console.error`: side effects with no bearing on what is shown.
- The forms (`AddApplicationDialog`, `AddBorrowerDialog`), `SodaClassifier.js` and `app.py`: not part of the dashboard aggregation.
- RiskDistribution.RiskFoldIsLatest: proves agreement with the latest row only under `EqualScoresShareTime`, because the code as written does not keep the latest score otherwise.

=== FILE: app_layout.dfy ===
/** The page header: the signed-in user's name, role label and initials.
    Missing text values (`null`, `undefined`, "") are the empty string. */
module AppLayout {
  import opened Js
  import opened Text

  /** `getRoleDisplayName` */
  function RoleDisplayName(role: string): (shown: string)
    ensures role == "loan_officer" ==> shown == "Loan Officer"
    ensures role == "credit_manager" ==> shown == "Credit Manager"
    ensures role == "admin" ==> shown == "Administrator"
    ensures shown == "User" <==> role != "loan_officer" && role != "credit_manager" && role != "admin"
  {
    match role
    case "loan_officer" => "Loan Officer"
    case "credit_manager" => "Credit Manager"
    case "admin" => "Administrator"
    case _ => "User"
  }

  /** Different known roles get different labels. */
  lemma RoleLabelsDistinct(a: string, b: string)
    requires RoleDisplayName(a) == RoleDisplayName(b) != "User"
    ensures a == b
  {
  }

  /** `s.slice(0, 2)` */
  function TakeTwo(s: string): (r: string)
    ensures |r| == if |s| < 2 then |s| else 2
    ensures r == s[..|r|]
  {
    if |s| <= 2 then s else s[..2]
  }

  /** `getInitials`: the first character of every space-separated piece of
      the name, upper-cased, at most two of them. An empty piece contributes
      nothing. */
  function Initials(name: string): (r: string)
    ensures |r| <= 2
    ensures r == TakeTwo(Upper(WordStarts(name)))
  {
    SplitHeads(name);
    TakeTwo(Upper(HeadsOrEmpty(Split(name))))
  }

  /** A single word shows its first character upper-cased. */
  lemma OneWordInitials(word: string)
    requires |word| > 0 && forall i :: 0 <= i < |word| ==> word[i] != ' '
    ensures Initials(word) == [UpperChar(word[0])]
  {
    NoSpaceStarts(word, true);
  }

  /** A name made of one space is truthy, so it is used, but has no
      initials. */
  lemma BlankNameInitials()
    ensures Initials(" ") == ""
  {
    assert WordStartsFrom(" ", true) == "" by {
      assert " "[1..] == "";
    }
  }

  /** A two-word name shows the upper-cased first characters of both. */
  lemma TwoWordInitials(first: string, last: string)
    requires |first| > 0 && |last| > 0
    requires forall i :: 0 <= i < |first| ==> first[i] != ' '
    requires forall i :: 0 <= i < |last| ==> last[i] != ' '
    ensures Initials(first + " " + last) == [UpperChar(first[0]), UpperChar(last[0])]
  {
    TwoWordStarts(first, last);
  }

  /** The signed-in user's metadata, when there is a user. */
  datatype User = User(fullName: string, email: string)

  /** The full name from the user's metadata, else the e-mail address, else
      the fallback; an empty value counts as missing. */
  function NameOr(user: Option<User>, fallback: string): (s: string)
    ensures user.Some? && user.value.fullName != "" ==> s == user.value.fullName
    ensures user.Some? && user.value.fullName == "" && user.value.email != "" ==> s == user.value.email
    ensures user.None? || (user.value.fullName == "" && user.value.email == "") ==> s == fallback
  {
    if user.Some? && user.value.fullName != "" then user.value.fullName
    else if user.Some? && user.value.email != "" then user.value.email
    else fallback
  }

  /** What the header shows: the name line, the role line and the avatar. */
  datatype Header = Header(name: string, role: string, initials: string)

  function HeaderOf(user: Option<User>, role: string): (h: Header)
    ensures |h.name| > 0 && |h.initials| <= 2
    ensures h.role == RoleDisplayName(role)
    ensures h.name == NameOr(user, "User") && h.initials == Initials(NameOr(user, "U"))
    ensures user.Some? && user.value.fullName != "" ==>
      h.name == user.value.fullName && h.initials == TakeTwo(Upper(WordStarts(user.value.fullName)))
  {
    Header(NameOr(user, "User"), RoleDisplayName(role), Initials(NameOr(user, "U")))
  }

  /** Without a name or an email the header reads "User" and the avatar
      "U"; with only an email the avatar shows its first character
      upper-cased when it has no space. */
  lemma HeaderFallbacks(user: Option<User>, role: string)
    ensures user.None? || (user.value.fullName == "" && user.value.email == "") ==>
      HeaderOf(user, role).name == "User" && HeaderOf(user, role).initials == "U"
    ensures
      (&& user.Some? && user.value.fullName == "" && user.value.email != ""
       && forall i :: 0 <= i < |user.value.email| ==> user.value.email[i] != ' ') ==>
        HeaderOf(user, role).initials == [UpperChar(user.value.email[0])]
  {
    OneWordInitials("U");
    if user.Some? && user.value.fullName == "" && user.value.email != "" &&
      (forall i :: 0 <= i < |user.value.email| ==> user.value.email[i] != ' ')
    {
      OneWordInitials(user.value.email);
    }
  }
}

=== FILE: app_sidebar.dfy ===
/** The navigation sidebar: three sections of links, the second and third
    shown only to some roles. A role is the empty string when there is
    none (`userRole` null). */
module AppSidebar {

  datatype NavItem = NavItem(title: string, url: string)

  datatype Section = Section(title: string, items: seq<NavItem>)

  const CoreItems: seq<NavItem> := [
    NavItem("Dashboard", "/"),
    NavItem("New Credit Check", "/credit-check"),
    NavItem("Borrowers", "/borrowers")
  ]

  const ManagementItems: seq<NavItem> := [
    NavItem("Applications", "/applications"),
    NavItem("Approvals", "/approvals")
  ]

  const AdminItems: seq<NavItem> := [
    NavItem("System Settings", "/settings"),
    NavItem("User Management", "/users")
  ]

  /** A section is open to a role that is set and among its allowed roles;
      a missing role is never let in. */
  predicate HasAccess(role: string, allowed: seq<string>)
    ensures HasAccess(role, allowed) <==> role != "" && exists k :: 0 <= k < |allowed| && allowed[k] == role
    ensures role == "" ==> !HasAccess(role, allowed)
  {
    role != "" && role in allowed
  }

  /** The sections shown to `role`, top to bottom. */
  function Sections(role: string): (s: seq<Section>)
    ensures 1 <= |s| <= 3
    ensures s[0] == Section("Core Functions", CoreItems)
  {
    [Section("Core Functions", CoreItems)]
    + (if HasAccess(role, ["credit_manager", "admin"]) then [Section("Management", ManagementItems)] else [])
    + (if HasAccess(role, ["admin"]) then [Section("Administration", AdminItems)] else [])
  }

  predicate Shows(role: string, title: string)
  {
    exists k :: 0 <= k < |Sections(role)| && Sections(role)[k].title == title
  }

  /** Every role, and no role at all, sees the core section; managers and
      administrators see the management section; only administrators see
      the administration section. */
  lemma SectionVisibility(role: string)
    ensures Shows(role, "Core Functions")
    ensures Shows(role, "Management") <==> role == "credit_manager" || role == "admin"
    ensures Shows(role, "Administration") <==> role == "admin"
  {
    var s := Sections(role);
    assert s[0].title == "Core Functions";
    if role == "credit_manager" || role == "admin" {
      assert s[1].title == "Management";
    }
    if role == "admin" {
      assert s[2].title == "Administration";
    }
  }

  /** Without a role, or with any role other than the two privileged ones
      (a loan officer included), only the core section is shown. */
  lemma OthersSeeOnlyCore(role: string)
    requires role != "credit_manager" && role != "admin"
    ensures Sections(role) == [Section("Core Functions", CoreItems)]
  {
  }

  /** The links shown to `role`, section by section. */
  function Links(role: string): (items: seq<NavItem>)
    ensures |items| == 3 || |items| == 5 || |items| == 7
    ensures items[..3] == CoreItems
  {
    var s := Sections(role);
    s[0].items
    + (if |s| > 1 then s[1].items else [])
    + (if |s| > 2 then s[2].items else [])
  }

  /** Higher roles see everything lower roles see: loan officer, then
      credit manager, then administrator. */
  lemma LinksMonotone(item: NavItem)
    ensures item in Links("loan_officer") ==> item in Links("credit_manager")
    ensures item in Links("credit_manager") ==> item in Links("admin")
  {
    assert Links("loan_officer") == CoreItems;
    assert Links("credit_manager") == CoreItems + ManagementItems;
    assert Links("admin") == CoreItems + ManagementItems + AdminItems;
  }

  /** No role sees the same link twice. */
  lemma LinksDistinct(role: string)
    ensures forall i, j :: 0 <= i < j < |Links(role)| ==> Links(role)[i].url != Links(role)[j].url
  {
    var all := CoreItems + ManagementItems + AdminItems;
    assert forall i, j :: 0 <= i < j < |all| ==> all[i].url != all[j].url;
    assert Links(role) == all[..|Links(role)|];
  }
}

=== FILE: js.dfy ===
/** JavaScript value semantics the dashboard code relies on: nullable values,
    Supabase query responses, `Math.round`, rounding to two decimals and the
    mean-of-scores expression shared by the statistics and trend widgets. */
module Js {

  /** A nullable value (`T | null`). */
  datatype Option<+T> = None | Some(value: T) {
    /** `x ?? d` */
    function GetOr(d: T): T {
      match this
      case Some(v) => v
      case None => d
    }
  }

  /** The outcome of an aggregation that can fail as a whole. */
  datatype Result<+T> = Success(value: T) | Failure(message: string)

  /** What a Supabase query hands back: rows, no rows (`data` is null without an
      error), an error object (`data` is null), or a rejected promise. */
  datatype Response<+T> = Rows(data: seq<T>) | NoRows | Errored | Rejected

  /** `data ?? []` */
  function DataOrEmpty<T>(r: Response<T>): (rows: seq<T>)
    ensures r.Rows? ==> rows == r.data
    ensures !r.Rows? ==> rows == []
  {
    if r.Rows? then r.data else []
  }

  /** A widget's state: still loading (an exception escaped the async fetch, so
      `loading` is never reset) or loaded with a value. */
  datatype Loadable<+T> = Loading | Loaded(value: T)

  function Abs(x: real): (r: real)
    ensures r >= 0.0
    ensures r == x || r == -x
  {
    if x < 0.0 then -x else x
  }

  /** `Math.round`: the integer nearest to `x`, halves going toward +infinity
      (so `Math.round(-0.5)` is -0, which compares equal to 0). */
  function JsRound(x: real): (r: int)
    ensures x - 0.5 < r as real <= x + 0.5
  {
    (x + 0.5).Floor
  }

  /** At most one integer lies in a half-open interval of width one. */
  lemma JsRoundUnique(x: real, k: int)
    requires x - 0.5 < k as real <= x + 0.5
    ensures JsRound(x) == k
  {
  }

  lemma JsRoundMonotone(x: real, y: real)
    requires x <= y
    ensures JsRound(x) <= JsRound(y)
  {
  }

  lemma JsRoundOfInt(n: int)
    ensures JsRound(n as real) == n
  {
    JsRoundUnique(n as real, n);
  }

  /** The rounded percentage a part makes of its whole lies in 0..100. */
  lemma RoundedShareBounds(a: nat, t: nat)
    requires 0 < t && a <= t
    ensures 0 <= JsRound((a as real / t as real) * 100.0) <= 100
  {
    var q := a as real / t as real;
    assert q * t as real == a as real;
    assert 0.0 <= q <= 1.0;
    JsRoundMonotone(0.0, q * 100.0);
    JsRoundMonotone(q * 100.0, 100.0);
    JsRoundOfInt(0);
    JsRoundOfInt(100);
  }

  /** `r` is a whole number of hundredths. */
  predicate IsHundredths(r: real)
  {
    (r * 100.0).Floor as real == r * 100.0
  }

  /** `Math.round(x * 100) / 100`: `x` rounded to two decimals. The two
      clauses together pin the result: the one multiple of 0.01 in
      `(x - 0.005, x + 0.005]`. */
  function Round2(x: real): (r: real)
    ensures IsHundredths(r)
    ensures x - 0.005 < r <= x + 0.005
  {
    JsRound(x * 100.0) as real / 100.0
  }

  lemma Round2Monotone(x: real, y: real)
    requires x <= y
    ensures Round2(x) <= Round2(y)
  {
    JsRoundMonotone(x * 100.0, y * 100.0);
  }

  /** Only `Round2(x)` is a whole number of hundredths within 0.005 of `x`
      on the half-open side `Math.round` takes. */
  lemma Round2Unique(x: real, r: real)
    requires IsHundredths(r) && x - 0.005 < r <= x + 0.005
    ensures Round2(x) == r
  {
    var k := (r * 100.0).Floor;
    assert x * 100.0 - 0.5 < k as real <= x * 100.0 + 0.5;
    JsRoundUnique(x * 100.0, k);
  }

  lemma Round2OfInt(n: int)
    ensures Round2(n as real) == n as real
  {
    JsRoundOfInt(n * 100);
  }

  /** The sum of the elements, added up from 0. */
  function Sum(xs: seq<int>): int
  {
    if |xs| == 0 then 0 else Sum(xs[..|xs| - 1]) + xs[|xs| - 1]
  }

  function Min(xs: seq<int>): (m: int)
    requires |xs| > 0
    ensures m in xs
    ensures forall i :: 0 <= i < |xs| ==> m <= xs[i]
  {
    if |xs| == 1 then xs[0]
    else
      var rest := Min(xs[1..]);
      assert forall i :: 1 <= i < |xs| ==> xs[i] == xs[1..][i - 1];
      if xs[0] <= rest then xs[0] else rest
  }

  function Max(xs: seq<int>): (m: int)
    requires |xs| > 0
    ensures m in xs
    ensures forall i :: 0 <= i < |xs| ==> xs[i] <= m
  {
    if |xs| == 1 then xs[0]
    else
      var rest := Max(xs[1..]);
      assert forall i :: 1 <= i < |xs| ==> xs[i] == xs[1..][i - 1];
      if xs[0] >= rest then xs[0] else rest
  }

  /** Every element lies between `lo` and `hi`, so the sum lies between
      `|xs| * lo` and `|xs| * hi`. */
  lemma {:induction false} SumBounds(xs: seq<int>, lo: int, hi: int)
    requires forall i :: 0 <= i < |xs| ==> lo <= xs[i] <= hi
    ensures |xs| * lo <= Sum(xs) <= |xs| * hi
  {
    if |xs| > 0 {
      var pre := xs[..|xs| - 1];
      assert forall i :: 0 <= i < |pre| ==> pre[i] == xs[i];
      SumBounds(pre, lo, hi);
      assert Sum(xs) == Sum(pre) + xs[|xs| - 1];
      assert (|xs| - 1) * lo + lo == |xs| * lo;
      assert (|xs| - 1) * hi + hi == |xs| * hi;
    }
  }

  /** The exact arithmetic mean. */
  function Mean(xs: seq<int>): (m: real)
    requires |xs| > 0
    ensures Min(xs) as real <= m <= Max(xs) as real
  {
    SumBounds(xs, Min(xs), Max(xs));
    MeanBetween(Sum(xs), |xs|, Min(xs), Max(xs));
    Sum(xs) as real / |xs| as real
  }

  lemma MeanBetween(s: int, n: nat, lo: int, hi: int)
    requires n > 0
    requires n * lo <= s <= n * hi
    ensures lo as real <= s as real / n as real <= hi as real
  {
    assert (n * lo) as real == n as real * lo as real;
    assert (n * hi) as real == n as real * hi as real;
  }

  /** Scores whose sum is a whole multiple of their count average to
      exactly that whole number. */
  lemma MeanRoundedOfWhole(xs: seq<int>, n: int)
    requires |xs| > 0 && Sum(xs) == n * |xs|
    ensures MeanRounded(xs) == n as real
  {
    assert MeanRounded(xs) == Round2(Mean(xs));
    assert Mean(xs) == Sum(xs) as real / |xs| as real;
    WholeQuotient(n, |xs|);
    Round2OfInt(n);
  }

  lemma WholeQuotient(n: int, c: nat)
    requires c > 0
    ensures (n * c) as real / c as real == n as real
  {
    assert (n * c) as real == n as real * c as real;
  }

  /** The mean
      rounded to two decimals, or 0 when there is nothing to average. For
      integer scores the rounded mean stays within the smallest and largest
      score. */
  function MeanRounded(xs: seq<int>): (r: real)
    ensures |xs| == 0 ==> r == 0.0
    ensures IsHundredths(r)
    ensures |xs| > 0 ==> Min(xs) as real <= r <= Max(xs) as real
    ensures |xs| > 0 ==> Mean(xs) - 0.005 < r <= Mean(xs) + 0.005
  {
    if |xs| == 0 then 0.0
    else
      var m := Mean(xs);
      Round2Monotone(Min(xs) as real, m);
      Round2Monotone(m, Max(xs) as real);
      Round2OfInt(Min(xs));
      Round2OfInt(Max(xs));
      Round2(m)
  }
}

=== FILE: latest_score.dfy ===
/** The "latest score per application" fold the widgets share. The score
    rows are visited in response order; a row the widget skips (`keep` is
    false) changes nothing; otherwise the row is stored under its
    application id when that id has no row yet or when the row's timestamp
    is strictly later than the stored row's.

    Because the comparison is strict, of several rows with the greatest
    timestamp the first one seen wins. The keys of a JavaScript `Map`
    iterate in the order they were first inserted, which is `FirstSeenIds`. */
module LatestScore {
  import opened Js
  import opened Seqs
  import opened Records

  /** One step of the fold: a kept row is stored under its id when the id
      is new or the row is strictly newer; no other entry changes. */
  function Step(m: map<string, ScoreRow>, row: ScoreRow, keep: ScoreRow -> bool): (m': map<string, ScoreRow>)
    ensures !keep(row) ==> m' == m
    ensures forall id :: id in m' <==> id in m || (keep(row) && id == row.applicationId)
    ensures forall id :: id in m && id != row.applicationId ==> m'[id] == m[id]
    ensures keep(row) ==>
      (m'[row.applicationId] == row
       <==> row.applicationId !in m || row.scoredAt > m[row.applicationId].scoredAt || m[row.applicationId] == row)
    ensures keep(row) && row.applicationId in m ==>
      m'[row.applicationId] == row || m'[row.applicationId] == m[row.applicationId]
  {
    if !keep(row) then m
    else if row.applicationId !in m || row.scoredAt > m[row.applicationId].scoredAt then
      m[row.applicationId := row]
    else m
  }

  /** The fold over `rows`, from first to last. */
  function LatestBy(rows: seq<ScoreRow>, keep: ScoreRow -> bool): (m: map<string, ScoreRow>)
    ensures forall id :: id in m ==> m[id].applicationId == id && keep(m[id]) && m[id] in rows
  {
    if |rows| == 0 then map[]
    else
      var pre := rows[..|rows| - 1];
      assert forall r :: r in pre ==> r in rows;
      Step(LatestBy(pre, keep), rows[|rows| - 1], keep)
  }

  /** Some kept row belongs to application `id`. */
  ghost predicate Submitted(rows: seq<ScoreRow>, keep: ScoreRow -> bool, id: string)
  {
    exists i :: 0 <= i < |rows| && keep(rows[i]) && rows[i].applicationId == id
  }

  /** Reference definition: `rows[j]` is the first of the kept rows of `id`
      that carry the greatest timestamp among them. */
  ghost predicate IsLatest(rows: seq<ScoreRow>, keep: ScoreRow -> bool, id: string, j: int)
  {
    && 0 <= j < |rows| && keep(rows[j]) && rows[j].applicationId == id
    && (forall i :: 0 <= i < |rows| && keep(rows[i]) && rows[i].applicationId == id ==>
          rows[i].scoredAt <= rows[j].scoredAt)
    && (forall i :: 0 <= i < j && keep(rows[i]) && rows[i].applicationId == id ==>
          rows[i].scoredAt < rows[j].scoredAt)
  }

  /** Only one row is the first latest one. */
  lemma IsLatestUnique(rows: seq<ScoreRow>, keep: ScoreRow -> bool, id: string, j1: int, j2: int)
    requires IsLatest(rows, keep, id, j1) && IsLatest(rows, keep, id, j2)
    ensures j1 == j2
  {
  }

  /** An application is resolved exactly when it has a kept row. */
  lemma {:induction false} LatestKey(rows: seq<ScoreRow>, keep: ScoreRow -> bool, id: string)
    ensures id in LatestBy(rows, keep) <==> Submitted(rows, keep, id)
  {
    if |rows| > 0 {
      var n := |rows| - 1;
      var pre := rows[..n];
      LatestKey(pre, keep, id);
      if Submitted(rows, keep, id) {
        var i :| 0 <= i < |rows| && keep(rows[i]) && rows[i].applicationId == id;
        if i < n {
          assert pre[i] == rows[i];
        }
      }
      if id in LatestBy(pre, keep) {
        var i :| 0 <= i < |pre| && keep(pre[i]) && pre[i].applicationId == id;
        assert rows[i] == pre[i];
      }
    }
  }

  /** The row the fold keeps for a resolved application is its first latest
      kept row; `j` is its index. */
  lemma {:induction false} LatestRow(rows: seq<ScoreRow>, keep: ScoreRow -> bool, id: string) returns (j: int)
    requires id in LatestBy(rows, keep)
    ensures IsLatest(rows, keep, id, j) && LatestBy(rows, keep)[id] == rows[j]
  {
    var n := |rows| - 1;
    var pre := rows[..n];
    var r := rows[n];
    assert rows == pre + [r];
    var m0 := LatestBy(pre, keep);
    assert LatestBy(rows, keep) == Step(m0, r, keep);
    if id in m0 {
      var j0 := LatestRow(pre, keep, id);
      LatestSnocIndex(pre, keep, id, j0, r);
      j := if keep(r) && r.applicationId == id && r.scoredAt > pre[j0].scoredAt then n else j0;
    } else {
      LatestKey(pre, keep, id);
      FirstLatest(pre, keep, id, r);
      j := n;
    }
  }

  /** After appending `r`, the first latest row of `id` is `r` when it is a
      kept row of `id` strictly newer than the previous one, and otherwise
      stays where it was. */
  lemma LatestSnocIndex(pre: seq<ScoreRow>, keep: ScoreRow -> bool, id: string, j: int, r: ScoreRow)
    requires IsLatest(pre, keep, id, j)
    ensures keep(r) && r.applicationId == id && r.scoredAt > pre[j].scoredAt ==>
      IsLatest(pre + [r], keep, id, |pre|)
    ensures !(keep(r) && r.applicationId == id && r.scoredAt > pre[j].scoredAt) ==>
      IsLatest(pre + [r], keep, id, j)
  {
    var rows := pre + [r];
    assert forall i :: 0 <= i < |pre| ==> rows[i] == pre[i];
  }

  /** The first kept row of an application is its latest one so far. */
  lemma FirstLatest(pre: seq<ScoreRow>, keep: ScoreRow -> bool, id: string, r: ScoreRow)
    requires !Submitted(pre, keep, id)
    requires keep(r) && r.applicationId == id
    ensures IsLatest(pre + [r], keep, id, |pre|)
  {
    var rows := pre + [r];
    assert forall i :: 0 <= i < |pre| ==> rows[i] == pre[i];
  }

  /** The fold resolves exactly the applications that have a kept row, each
      to its latest kept row (the first seen among equally late ones). */
  lemma LatestByIsLatest(rows: seq<ScoreRow>, keep: ScoreRow -> bool)
    ensures forall id :: id in LatestBy(rows, keep) <==> Submitted(rows, keep, id)
    ensures forall id :: id in LatestBy(rows, keep) ==>
      exists j :: IsLatest(rows, keep, id, j) && LatestBy(rows, keep)[id] == rows[j]
  {
    forall id
      ensures id in LatestBy(rows, keep) <==> Submitted(rows, keep, id)
    {
      LatestKey(rows, keep, id);
    }
    forall id | id in LatestBy(rows, keep)
      ensures exists j :: IsLatest(rows, keep, id, j) && LatestBy(rows, keep)[id] == rows[j]
    {
      var j := LatestRow(rows, keep, id);
    }
  }

  /** The kept row of every application has the greatest timestamp among its
      kept rows. */
  lemma LatestIsNewest(rows: seq<ScoreRow>, keep: ScoreRow -> bool, i: int)
    requires 0 <= i < |rows| && keep(rows[i])
    ensures rows[i].applicationId in LatestBy(rows, keep)
    ensures rows[i].scoredAt <= LatestBy(rows, keep)[rows[i].applicationId].scoredAt
  {
    var id := rows[i].applicationId;
    LatestKey(rows, keep, id);
    var j := LatestRow(rows, keep, id);
  }

  /** Inserting, anywhere, a row that is skipped or strictly older than the
      row kept for its application leaves the resolution unchanged. */
  lemma InsertOlderRow(rows: seq<ScoreRow>, keep: ScoreRow -> bool, k: int, r: ScoreRow)
    requires 0 <= k <= |rows|
    requires keep(r) ==> r.applicationId in LatestBy(rows, keep)
    requires keep(r) ==> r.scoredAt < LatestBy(rows, keep)[r.applicationId].scoredAt
    ensures LatestBy(rows[..k] + [r] + rows[k..], keep) == LatestBy(rows, keep)
  {
    var m := LatestBy(rows, keep);
    var m' := LatestBy(rows[..k] + [r] + rows[k..], keep);
    forall id
      ensures id in m' <==> id in m
    {
      InsertedKey(rows, keep, k, r, id);
    }
    forall id | id in m
      ensures id in m' && m'[id] == m[id]
    {
      InsertedValue(rows, keep, k, r, id);
    }
    SameMap(m', m);
  }

  lemma SameMap(a: map<string, ScoreRow>, b: map<string, ScoreRow>)
    requires forall id :: id in a <==> id in b
    requires forall id :: id in b ==> id in a && a[id] == b[id]
    ensures a == b
  {
  }

  lemma InsertionIndices(rows: seq<ScoreRow>, k: int, r: ScoreRow)
    requires 0 <= k <= |rows|
    ensures |rows[..k] + [r] + rows[k..]| == |rows| + 1
    ensures forall i :: 0 <= i < k ==> (rows[..k] + [r] + rows[k..])[i] == rows[i]
    ensures (rows[..k] + [r] + rows[k..])[k] == r
    ensures forall i :: k <= i < |rows| ==> (rows[..k] + [r] + rows[k..])[i + 1] == rows[i]
  {
  }

  lemma InsertedKey(rows: seq<ScoreRow>, keep: ScoreRow -> bool, k: int, r: ScoreRow, id: string)
    requires 0 <= k <= |rows|
    requires keep(r) ==> r.applicationId in LatestBy(rows, keep)
    ensures id in LatestBy(rows[..k] + [r] + rows[k..], keep) <==> id in LatestBy(rows, keep)
  {
    var rows' := rows[..k] + [r] + rows[k..];
    InsertionIndices(rows, k, r);
    LatestKey(rows, keep, id);
    LatestKey(rows', keep, id);
    if keep(r) {
      LatestKey(rows, keep, r.applicationId);
    }
    if Submitted(rows', keep, id) {
      var i' :| 0 <= i' < |rows'| && keep(rows'[i']) && rows'[i'].applicationId == id;
      if i' < k {
        assert rows'[i'] == rows[i'];
      } else if i' > k {
        assert rows'[i'] == rows[i' - 1];
      }
    }
    if Submitted(rows, keep, id) {
      var i :| 0 <= i < |rows| && keep(rows[i]) && rows[i].applicationId == id;
      var ii := if i < k then i else i + 1;
      assert rows'[ii] == rows[i];
    }
  }

  lemma InsertedValue(rows: seq<ScoreRow>, keep: ScoreRow -> bool, k: int, r: ScoreRow, id: string)
    requires 0 <= k <= |rows|
    requires keep(r) ==> r.applicationId in LatestBy(rows, keep)
    requires keep(r) ==> r.scoredAt < LatestBy(rows, keep)[r.applicationId].scoredAt
    requires id in LatestBy(rows, keep)
    ensures id in LatestBy(rows[..k] + [r] + rows[k..], keep)
    ensures LatestBy(rows[..k] + [r] + rows[k..], keep)[id] == LatestBy(rows, keep)[id]
  {
    var rows' := rows[..k] + [r] + rows[k..];
    InsertionIndices(rows, k, r);
    InsertedKey(rows, keep, k, r, id);
    var j := LatestRow(rows, keep, id);
    var j' := LatestRow(rows', keep, id);
    var jj := if j < k then j else j + 1;
    assert rows'[jj] == rows[j];
    assert j' != k;
    var J := if j' < k then j' else j' - 1;
    RemovedKeepsLatest(rows, keep, k, r, id, j');
    IsLatestUnique(rows, keep, id, j, J);
  }

  /** Taking out an inserted row that is not the first latest one keeps the
      first latest row, one place earlier when it came after the insertion. */
  lemma RemovedKeepsLatest(rows: seq<ScoreRow>, keep: ScoreRow -> bool, k: int, r: ScoreRow, id: string, j': int)
    requires 0 <= k <= |rows|
    requires IsLatest(rows[..k] + [r] + rows[k..], keep, id, j') && j' != k
    ensures IsLatest(rows, keep, id, if j' < k then j' else j' - 1)
    ensures rows[if j' < k then j' else j' - 1] == (rows[..k] + [r] + rows[k..])[j']
  {
    var rows' := rows[..k] + [r] + rows[k..];
    InsertionIndices(rows, k, r);
    var J := if j' < k then j' else j' - 1;
    assert rows[J] == rows'[j'];
    forall i | 0 <= i < |rows| && keep(rows[i]) && rows[i].applicationId == id
      ensures rows[i].scoredAt <= rows[J].scoredAt
    {
      var ii := if i < k then i else i + 1;
      assert rows'[ii] == rows[i];
    }
    forall i | 0 <= i < J && keep(rows[i]) && rows[i].applicationId == id
      ensures rows[i].scoredAt < rows[J].scoredAt
    {
      var ii := if i < k then i else i + 1;
      assert rows'[ii] == rows[i];
      assert ii < j';
    }
  }

  /** The ids of the kept rows in the order they first occur: the iteration
      order of the fold's `Map`. */
  function FirstSeenIds(rows: seq<ScoreRow>, keep: ScoreRow -> bool): (ids: seq<string>)
    ensures forall i, j :: 0 <= i < j < |ids| ==> ids[i] != ids[j]
    ensures forall id :: id in ids <==> Submitted(rows, keep, id)
  {
    if |rows| == 0 then []
    else
      var n := |rows| - 1;
      var pre := FirstSeenIds(rows[..n], keep);
      assert forall i :: 0 <= i < n ==> rows[..n][i] == rows[i];
      assert forall id :: Submitted(rows, keep, id) <==>
        Submitted(rows[..n], keep, id) || (keep(rows[n]) && rows[n].applicationId == id);
      if keep(rows[n]) && rows[n].applicationId !in pre then pre + [rows[n].applicationId] else pre
  }

  /** The index of the first kept row of `id`, or -1 when there is none:
      where the fold first inserts `id` into its `Map`. */
  function FirstKept(rows: seq<ScoreRow>, keep: ScoreRow -> bool, id: string): (f: int)
    ensures -1 <= f < |rows|
    ensures f >= 0 <==> Submitted(rows, keep, id)
    ensures f >= 0 ==> keep(rows[f]) && rows[f].applicationId == id
    ensures forall i :: 0 <= i < f ==> !(keep(rows[i]) && rows[i].applicationId == id)
  {
    match FindIndex(rows, (r: ScoreRow) => keep(r) && r.applicationId == id)
    case None => -1
    case Some(k) => k
  }

  /** A kept row of `id` appended after `rows` leaves the first insertion of
      an id already seen where it was, and puts a new id at the end. */
  lemma FirstKeptSnoc(rows: seq<ScoreRow>, keep: ScoreRow -> bool, id: string)
    requires |rows| > 0
    ensures var n := |rows| - 1;
      Submitted(rows[..n], keep, id) ==> FirstKept(rows, keep, id) == FirstKept(rows[..n], keep, id)
    ensures var n := |rows| - 1;
      !Submitted(rows[..n], keep, id) && keep(rows[n]) && rows[n].applicationId == id ==>
        FirstKept(rows, keep, id) == n
  {
    var n := |rows| - 1;
    assert forall i :: 0 <= i < n ==> rows[..n][i] == rows[i];
    if !Submitted(rows[..n], keep, id) && keep(rows[n]) && rows[n].applicationId == id {
      assert Submitted(rows, keep, id);
    }
  }

  /** `ids` lists applications that have kept rows, in the order of their
      first kept rows. */
  ghost predicate InsertionOrdered(rows: seq<ScoreRow>, keep: ScoreRow -> bool, ids: seq<string>)
  {
    forall i, j :: 0 <= i < j < |ids| ==> 0 <= FirstKept(rows, keep, ids[i]) < FirstKept(rows, keep, ids[j])
  }

  /** The first-seen ids come in the order of their first kept rows. */
  lemma {:induction false} FirstSeenIdsInOrder(rows: seq<ScoreRow>, keep: ScoreRow -> bool)
    ensures InsertionOrdered(rows, keep, FirstSeenIds(rows, keep))
  {
    if |rows| > 0 {
      var n := |rows| - 1;
      var pre := FirstSeenIds(rows[..n], keep);
      var ids := FirstSeenIds(rows, keep);
      FirstSeenIdsInOrder(rows[..n], keep);
      forall k | 0 <= k < |pre|
        ensures 0 <= FirstKept(rows, keep, pre[k]) == FirstKept(rows[..n], keep, pre[k]) < n
      {
        assert pre[k] in pre;
        FirstKeptSnoc(rows, keep, pre[k]);
      }
      if ids == pre {
        forall i, j | 0 <= i < j < |ids|
          ensures 0 <= FirstKept(rows, keep, ids[i]) < FirstKept(rows, keep, ids[j])
        {
          assert 0 <= FirstKept(rows[..n], keep, pre[i]) < FirstKept(rows[..n], keep, pre[j]);
        }
      } else {
        var id := rows[n].applicationId;
        assert ids == pre + [id];
        assert id !in pre;
        FirstKeptSnoc(rows, keep, id);
        assert FirstKept(rows, keep, id) == n;
        forall i, j | 0 <= i < j < |ids|
          ensures 0 <= FirstKept(rows, keep, ids[i]) < FirstKept(rows, keep, ids[j])
        {
          assert ids[i] == pre[i];
          if j < |pre| {
            assert ids[j] == pre[j];
          }
        }
      }
    } else {
      assert FirstSeenIds(rows, keep) == [];
    }
  }

  /** The fold's keys are exactly the first-seen ids, and those come in the
      order the fold first inserts them: the iteration order of its `Map`. */
  lemma {:induction false} LatestKeysInOrder(rows: seq<ScoreRow>, keep: ScoreRow -> bool)
    ensures forall id :: id in LatestBy(rows, keep) <==> id in FirstSeenIds(rows, keep)
    ensures InsertionOrdered(rows, keep, FirstSeenIds(rows, keep))
  {
    LatestKeysFirstSeen(rows, keep);
    FirstSeenIdsInOrder(rows, keep);
  }

  lemma LatestKeysFirstSeen(rows: seq<ScoreRow>, keep: ScoreRow -> bool)
    ensures forall id :: id in LatestBy(rows, keep) <==> id in FirstSeenIds(rows, keep)
  {
    LatestByIsLatest(rows, keep);
  }

  /** Appending a skipped row, or a row no newer than the kept row of its
      application, changes neither the resolution nor its iteration order. */
  lemma AppendOlderRow(rows: seq<ScoreRow>, keep: ScoreRow -> bool, r: ScoreRow)
    requires keep(r) ==> r.applicationId in LatestBy(rows, keep)
    requires keep(r) ==> r.scoredAt <= LatestBy(rows, keep)[r.applicationId].scoredAt
    ensures LatestBy(rows + [r], keep) == LatestBy(rows, keep)
    ensures FirstSeenIds(rows + [r], keep) == FirstSeenIds(rows, keep)
  {
    assert (rows + [r])[..|rows|] == rows;
    LatestKeysFirstSeen(rows, keep);
  }

  /** The fold over `rows + [r]` is one more step after the fold over `rows`. */
  lemma LatestSnoc(rows: seq<ScoreRow>, keep: ScoreRow -> bool, r: ScoreRow)
    ensures LatestBy(rows + [r], keep) == Step(LatestBy(rows, keep), r, keep)
  {
    assert (rows + [r])[..|rows|] == rows;
  }

  /** Filtering the rows before the fold is the same as skipping, inside
      the fold, the rows the filter would drop. */
  lemma {:induction false} LatestOfFiltered(rows: seq<ScoreRow>, p: ScoreRow -> bool, keep: ScoreRow -> bool, pk: ScoreRow -> bool)
    requires forall r :: pk(r) == (p(r) && keep(r))
    ensures LatestBy(Filter(rows, p), keep) == LatestBy(rows, pk)
  {
    if |rows| > 0 {
      var n := |rows| - 1;
      var pre := rows[..n];
      var r := rows[n];
      assert rows == pre + [r];
      LatestOfFiltered(pre, p, keep, pk);
      var m := LatestBy(pre, pk);
      LatestSnoc(pre, pk, r);
      FilterAppend(pre, [r], p);
      if p(r) {
        assert Filter([r], p) == [r];
        LatestSnoc(Filter(pre, p), keep, r);
        assert Step(m, r, keep) == Step(m, r, pk);
      } else {
        assert Filter([r], p) == [];
        assert Filter(pre, p) + [] == Filter(pre, p);
        assert Step(m, r, pk) == m;
      }
    }
  }

  /** Whether and how application `id` is resolved depends only on which of
      its own rows are kept. */
  lemma {:induction false} LatestAgreeOn(rows: seq<ScoreRow>, k1: ScoreRow -> bool, k2: ScoreRow -> bool, id: string)
    requires forall i :: 0 <= i < |rows| && rows[i].applicationId == id ==> k1(rows[i]) == k2(rows[i])
    ensures id in LatestBy(rows, k1) <==> id in LatestBy(rows, k2)
    ensures id in LatestBy(rows, k1) ==> LatestBy(rows, k1)[id] == LatestBy(rows, k2)[id]
  {
    if |rows| > 0 {
      var n := |rows| - 1;
      var pre := rows[..n];
      var r := rows[n];
      assert forall i :: 0 <= i < n ==> pre[i] == rows[i];
      LatestAgreeOn(pre, k1, k2, id);
      assert LatestBy(rows, k1) == Step(LatestBy(pre, k1), r, k1);
      assert LatestBy(rows, k2) == Step(LatestBy(pre, k2), r, k2);
      if r.applicationId == id {
        assert k1(r) == k2(r);
      }
    }
  }

  /** The kept rows in the map's iteration order,
      one per resolved application. */
  function Resolved(rows: seq<ScoreRow>, keep: ScoreRow -> bool): (rs: seq<ScoreRow>)
    ensures |rs| == |FirstSeenIds(rows, keep)|
    ensures forall k :: 0 <= k < |rs| ==>
      && FirstSeenIds(rows, keep)[k] in LatestBy(rows, keep)
      && rs[k] == LatestBy(rows, keep)[FirstSeenIds(rows, keep)[k]]
  {
    LatestKeysFirstSeen(rows, keep);
    ValuesAt(LatestBy(rows, keep), FirstSeenIds(rows, keep))
  }
}

=== FILE: recent_applications.dfy ===
/** The "Recent Applications" widget: the five newest applications, each
    joined with the latest classifier score of its id, and the labels shown
    for them (risk badge, status badge, borrower name and avatar). */
module RecentApplications {
  import opened Js
  import opened Seqs
  import opened Text
  import opened Records
  import opened LatestScore

  // ---------------------------------------------------------------------
  // Risk level and badge

  datatype Risk = Unknown | Low | Moderate | High | VeryHigh

  /** `getRiskLevel`: unknown without a score; "low" from 80 up with no upper
      bound, then 60, 40, and everything below 40. */
  function RiskOf(score: Option<int>): (r: Risk)
    ensures r == Unknown <==> score.None?
    ensures r == Low <==> score.Some? && score.value >= 80
    ensures r == Moderate <==> score.Some? && 60 <= score.value < 80
    ensures r == High <==> score.Some? && 40 <= score.value < 60
    ensures r == VeryHigh <==> score.Some? && score.value < 40
  {
    match score
    case None => Unknown
    case Some(v) =>
      if v >= 80 then Low
      else if v >= 60 then Moderate
      else if v >= 40 then High
      else VeryHigh
  }

  /** Severity of a risk level, from the safest. */
  function Severity(r: Risk): nat
  {
    match r
    case Low => 0
    case Moderate => 1
    case High => 2
    case VeryHigh => 3
    case Unknown => 4
  }

  /** A higher score never means a more severe risk level. */
  lemma RiskMonotone(a: int, b: int)
    requires a <= b
    ensures Severity(RiskOf(Some(b))) <= Severity(RiskOf(Some(a)))
  {
  }

  function RiskLabel(r: Risk): string
  {
    match r
    case Low => "Low Risk"
    case Moderate => "Moderate Risk"
    case High => "High Risk"
    case VeryHigh => "Very High Risk"
    case Unknown => "Not Scored"
  }

  /** The risk badge's text: the name, then the score in parentheses when
      there is one. */
  function RiskBadge(score: Option<int>): (t: string)
    ensures score.None? ==> t == "Not Scored"
    ensures score.Some? ==>
      var name := RiskLabel(RiskOf(score));
      && |t| > |name| + 2
      && t[..|name|] == name
      && t[|name|..|name| + 2] == " ("
      && t[|name| + 2..|t| - 1] == IntToString(score.value)
      && t[|t| - 1] == ')'
  {
    match score
    case None => RiskLabel(Unknown)
    case Some(v) => RiskLabel(RiskOf(score)) + " (" + IntToString(v) + ")"
  }

  /** The badge text determines the score: different scores (or a score and
      none) never show the same badge. */
  lemma RiskBadgeInjective(a: Option<int>, b: Option<int>)
    requires RiskBadge(a) == RiskBadge(b)
    ensures a == b
  {
    var t := RiskBadge(a);
    if a.Some? && b.Some? {
      var la := RiskLabel(RiskOf(a));
      var lb := RiskLabel(RiskOf(b));
      assert la[0] == t[0] == lb[0];
      assert la == lb;
      IntToStringInjective(a.value, b.value);
    }
  }

  /** The status with its first character upper-cased; a missing status
      reads as "". */
  function StatusLabel(status: string): (t: string)
    ensures |t| == |status|
    ensures |status| > 0 ==> t[0] == UpperChar(status[0]) && t[1..] == status[1..]
  {
    Capitalize(status)
  }

  lemma StatusLabels()
    ensures StatusLabel("pending") == "Pending"
    ensures StatusLabel("approved") == "Approved"
    ensures StatusLabel("rejected") == "Rejected"
    ensures StatusLabel("") == ""
  {
  }

  // ---------------------------------------------------------------------
  // Borrower name and avatar

  /** The borrower's first and last name joined by a space and trimmed, or
      "Unknown" when there is no borrower or neither name is set. */
  function BorrowerName(b: Option<Borrower>): (name: string)
    ensures b.None? ==> name == "Unknown"
    ensures b.Some? && b.value.firstName == "" && b.value.lastName == "" ==> name == "Unknown"
    ensures b.Some? && (b.value.firstName != "" || b.value.lastName != "") ==>
      name == Trim(b.value.firstName + " " + b.value.lastName)
    ensures b.Some? && (b.value.firstName != "" || b.value.lastName != "") ==> IsTrimmed(name)
  {
    match b
    case None => "Unknown"
    case Some(p) =>
      if p.firstName != "" || p.lastName != "" then Trim(p.firstName + " " + p.lastName)
      else "Unknown"
  }

  /** For names stored without surrounding white space the shown name is the
      first name, the last name, or both joined by one space. */
  lemma BorrowerNameOfTrimmed(p: Borrower)
    requires IsTrimmed(p.firstName) && IsTrimmed(p.lastName)
    ensures p.firstName != "" && p.lastName != "" ==>
      BorrowerName(Some(p)) == p.firstName + " " + p.lastName
    ensures p.firstName != "" && p.lastName == "" ==> BorrowerName(Some(p)) == p.firstName
    ensures p.firstName == "" && p.lastName != "" ==> BorrowerName(Some(p)) == p.lastName
  {
    TrimJoined(p.firstName, p.lastName);
  }

  /** The name, or "Unknown" when it is empty: never blank. */
  function ShownName(name: string): (t: string)
    ensures |t| > 0
    ensures name != "" ==> t == name
    ensures name == "" ==> t == "Unknown"
  {
    if name != "" then name else "Unknown"
  }

  /** The avatar text: the first character of every non-empty
      space-separated word, or "?" when there is none. */
  function AvatarText(name: string): (t: string)
    ensures |t| > 0
    ensures WordStarts(name) != "" ==> t == WordStarts(name)
    ensures WordStarts(name) == "" ==> t == "?"
  {
    var initials := InitialsOfWords(name);
    if initials != "" then initials else "?"
  }

  /** A name of two space-free words shows the first letter of each. */
  lemma AvatarOfTwoWords(first: string, last: string)
    requires |first| > 0 && |last| > 0
    requires forall i :: 0 <= i < |first| ==> first[i] != ' '
    requires forall i :: 0 <= i < |last| ==> last[i] != ' '
    ensures AvatarText(first + " " + last) == [first[0], last[0]]
  {
    TwoWordStarts(first, last);
  }

  // ---------------------------------------------------------------------
  // Joining applications with their latest score

  /** An application row as the widget renders it. */
  datatype RecentRow = RecentRow(app: AppRow, creditScore: Option<int>, riskLevel: Option<string>)

  /** The ids of the application rows, in order, the empty ones dropped. */
  function AppIds(apps: seq<AppRow>): (ids: seq<string>)
    ensures |ids| <= |apps|
    ensures forall k :: 0 <= k < |ids| ==> ids[k] != ""
    ensures forall i :: 0 <= i < |apps| && apps[i].id != "" ==> apps[i].id in ids
    ensures forall k :: 0 <= k < |ids| ==> exists i :: 0 <= i < |apps| && apps[i].id == ids[k]
  {
    if |apps| == 0 then []
    else
      var rest := AppIds(apps[1..]);
      assert forall i :: 1 <= i < |apps| ==> apps[i] == apps[1..][i - 1];
      if apps[0].id != "" then [apps[0].id] + rest else rest
  }

  /** The score query's filter: rows of one of the collected ids. */
  function InIds(ids: seq<string>): ScoreRow -> bool
  {
    (r: ScoreRow) => r.applicationId in ids
  }

  /** The widget's fold skips only rows without an application id. */
  predicate RecentKeep(r: ScoreRow) { r.applicationId != "" }

  /** `scoreMap`: empty when no id was collected (no score query is made),
      otherwise the fold over the rows the score query returned. */
  function ScoreMap(ids: seq<string>, scores: Response<ScoreRow>): (m: map<string, ScoreRow>)
    ensures |ids| == 0 ==> m == map[]
    ensures forall id :: id in m ==> id in ids && m[id].applicationId == id && m[id] in DataOrEmpty(scores)
  {
    if |ids| == 0 then map[]
    else LatestBy(Filter(DataOrEmpty(scores), InIds(ids)), RecentKeep)
  }

  /** Each application row with the score and risk level of its latest
      score row, or none; looked up only for applications with an id. */
  function Merge(apps: seq<AppRow>, m: map<string, ScoreRow>): (rows: seq<RecentRow>)
    ensures |rows| == |apps|
    ensures forall i :: 0 <= i < |apps| ==> rows[i].app == apps[i]
    ensures forall i :: 0 <= i < |apps| && (apps[i].id == "" || apps[i].id !in m) ==>
      rows[i].creditScore.None? && rows[i].riskLevel.None?
  {
    if |apps| == 0 then []
    else
      var a := apps[0];
      var entry := if a.id != "" && a.id in m then Some(m[a.id]) else None;
      [RecentRow(a,
                 if entry.Some? then entry.value.creditScore else None,
                 if entry.Some? then entry.value.riskLevel else None)]
      + Merge(apps[1..], m)
  }

  /** `fetchApps`: a failed or empty application query shows no rows; a
      rejected request (for the applications, or for the scores once some
      id was collected) escapes the handler and leaves the widget loading.
      An error from the score query reads as no scores. */
  function Fetch(apps: Response<AppRow>, scores: Response<ScoreRow>): (v: Loadable<seq<RecentRow>>)
    ensures apps.Rejected? ==> v == Loading
    ensures apps.NoRows? || apps.Errored? ==> v == Loaded([])
    ensures apps.Rows? && (|AppIds(apps.data)| == 0 || !scores.Rejected?) ==>
      v.Loaded? && |v.value| == |apps.data| &&
      forall i :: 0 <= i < |apps.data| ==> v.value[i].app == apps.data[i]
    ensures apps.Rows? && |AppIds(apps.data)| > 0 && scores.Rejected? ==> v == Loading
  {
    match apps
    case Rejected => Loading
    case NoRows => Loaded([])
    case Errored => Loaded([])
    case Rows(rows) =>
      var ids := AppIds(rows);
      if |ids| > 0 && scores.Rejected? then Loading
      else Loaded(Merge(rows, ScoreMap(ids, scores)))
  }

  /** For an application with an id, the widget's score map agrees with the
      fold over every returned row: the `.in` filter drops only rows of
      other applications. */
  lemma ScoreMapAt(apps: seq<AppRow>, scores: seq<ScoreRow>, id: string)
    requires id != "" && id in AppIds(apps)
    ensures id in ScoreMap(AppIds(apps), Rows(scores)) <==> id in LatestBy(scores, RecentKeep)
    ensures id in ScoreMap(AppIds(apps), Rows(scores)) ==>
      ScoreMap(AppIds(apps), Rows(scores))[id] == LatestBy(scores, RecentKeep)[id]
  {
    var ids := AppIds(apps);
    var both := (r: ScoreRow) => r.applicationId in ids && RecentKeep(r);
    LatestOfFiltered(scores, InIds(ids), RecentKeep, both);
    LatestAgreeOn(scores, both, RecentKeep, id);
  }

  /** The score shown for an application with an id is the one of its latest
      score row (the first seen among equally late ones), and nothing when the
      score query returned no row for it. Rows with a null score take part:
      a later unscored row hides an earlier score. */
  lemma RecentScoreIsLatest(apps: seq<AppRow>, scores: seq<ScoreRow>, i: int) returns (j: int)
    requires 0 <= i < |apps| && apps[i].id != ""
    ensures var v := Fetch(Rows(apps), Rows(scores));
      && v.Loaded?
      && (Submitted(scores, RecentKeep, apps[i].id) ==>
            && IsLatest(scores, RecentKeep, apps[i].id, j)
            && v.value[i].creditScore == scores[j].creditScore
            && v.value[i].riskLevel == scores[j].riskLevel)
      && (!Submitted(scores, RecentKeep, apps[i].id) ==>
            v.value[i].creditScore.None? && v.value[i].riskLevel.None?)
  {
    j := 0;
    var id := apps[i].id;
    var ids := AppIds(apps);
    var m := ScoreMap(ids, Rows(scores));
    assert Fetch(Rows(apps), Rows(scores)) == Loaded(Merge(apps, m));
    ScoreMapAt(apps, scores, id);
    LatestKey(scores, RecentKeep, id);
    if Submitted(scores, RecentKeep, id) {
      j := LatestRow(scores, RecentKeep, id);
      MergeAt(apps, m, i);
    }
  }

  /** The merged row at `i` for an application with an id. */
  lemma {:induction false} MergeAt(apps: seq<AppRow>, m: map<string, ScoreRow>, i: int)
    requires 0 <= i < |apps| && apps[i].id != "" && apps[i].id in m
    ensures Merge(apps, m)[i].creditScore == m[apps[i].id].creditScore
    ensures Merge(apps, m)[i].riskLevel == m[apps[i].id].riskLevel
  {
    if i > 0 {
      MergeAt(apps[1..], m, i - 1);
    }
  }

  /** A later row without a score hides an earlier scored row: the badge
      reads "Not Scored" although the application was scored before. */
  lemma NullScoreHidesEarlierScore(app: AppRow, older: ScoreRow, newer: ScoreRow)
    requires app.id != ""
    requires older.applicationId == app.id && newer.applicationId == app.id
    requires older.creditScore.Some? && newer.creditScore.None?
    requires older.scoredAt < newer.scoredAt
    ensures var v := Fetch(Rows([app]), Rows([older, newer]));
      && v.Loaded? && |v.value| == 1
      && v.value[0].creditScore.None?
      && RiskBadge(v.value[0].creditScore) == "Not Scored"
  {
    var scores := [older, newer];
    assert RecentKeep(scores[1]);
    var j := RecentScoreIsLatest([app], scores, 0);
  }
}

=== FILE: records.dfy ===
/** The rows the dashboard reads from its two tables. Timestamps are integers
    (milliseconds, compared as `new Date(...)` values are); the calendar month
    of a score's timestamp is given with the row, as `getMonth()` computes it
    in the viewer's time zone. A missing or empty text column (`null`,
    `undefined` or "") is the empty string: every use in the dashboard only
    tests such a column for truthiness or compares it with a non-empty
    literal. */
module Records {
  import opened Js

  /** `Date.prototype.getMonth()`: January is 0, December is 11. */
  type Month = m: int | 0 <= m < 12

  /** A row of `ml_application_scores`: one classifier invocation. */
  datatype ScoreRow = ScoreRow(
    applicationId: string,
    creditScore: Option<int>,
    riskLevel: Option<string>,
    scoredAt: int,
    month: Month)

  /** The embedded `borrowers (first_name, last_name)` record. */
  datatype Borrower = Borrower(firstName: string, lastName: string)

  /** A row of `credit_applications`; `status` is "pending", "approved" or
      "rejected" in practice. */
  datatype AppRow = AppRow(
    id: string,
    loanAmount: Option<real>,
    status: string,
    createdAt: int,
    borrower: Option<Borrower>)
}

=== FILE: risk_distribution.dfy ===
/** The "Risk Distribution" pie: the latest score of every application scored
    in the last 30 days, counted into four fixed risk buckets and shown as
    rounded percentages. The latest-score fold is the widget's own variant,
    which finds the row behind the stored score by searching for an equal
    score. */
module RiskDistribution {
  import opened Js
  import opened Seqs
  import opened Records
  import opened LatestScore
  import RecentApplications

  // ---------------------------------------------------------------------
  // Buckets

  /** A bucket; `min` is `None` for the `-Infinity` lower bound. */
  datatype Bucket = Bucket(name: string, min: Option<int>, max: int)

  const RiskBuckets: seq<Bucket> := [
    Bucket("Low Risk (80-100)", Some(80), 100),
    Bucket("Moderate Risk (60-79)", Some(60), 79),
    Bucket("High Risk (40-59)", Some(40), 59),
    Bucket("Very High Risk (<40)", None, 39)
  ]

  /** A score lies in a bucket when it is at most its maximum and at least
      its minimum, if it has one. */
  predicate InBucket(b: Bucket, score: int)
  {
    (b.min.None? || score >= b.min.value) && score <= b.max
  }

  /** `RISK_BUCKETS.findIndex(...)`, `None` for -1. */
  function FindBucket(score: int): (k: Option<nat>)
    ensures k.Some? ==> k.value < 4 && InBucket(RiskBuckets[k.value], score)
    ensures k.None? ==> forall j :: 0 <= j < 4 ==> !InBucket(RiskBuckets[j], score)
  {
    FindIndex(RiskBuckets, (b: Bucket) => InBucket(b, score))
  }

  /** The buckets are pairwise disjoint and cover every score up to 100; a
      score above 100 falls in none. */
  lemma BucketsPartition(score: int)
    ensures score <= 100 ==> FindBucket(score).Some?
    ensures score > 100 ==> FindBucket(score).None?
    ensures forall j, k :: 0 <= j < k < 4 ==> !(InBucket(RiskBuckets[j], score) && InBucket(RiskBuckets[k], score))
  {
  }

  /** Up to 100 the buckets agree with the risk levels of the recent
      applications list, bucket 0 being "low" and bucket 3 "very high";
      above 100 that list says "low" while the pie counts nothing. */
  lemma BucketsAgreeWithRiskLevels(score: int)
    ensures score <= 100 ==>
      FindBucket(score) == Some(RecentApplications.Severity(RecentApplications.RiskOf(Some(score))))
    ensures score > 100 ==>
      FindBucket(score).None? && RecentApplications.RiskOf(Some(score)) == RecentApplications.Low
  {
  }

  // ---------------------------------------------------------------------
  // The widget's latest-score fold, as written

  /** The rows the fold keeps: a missing score, a score of 0 and a missing
      id are all skipped. */
  predicate Truthy(r: ScoreRow)
  {
    r.applicationId != "" && r.creditScore.Some? && r.creditScore.value != 0
  }

  /** The rows of application `id` whose score is exactly `s`. */
  function SameScore(id: string, s: int): ScoreRow -> bool
  {
    (r: ScoreRow) => r.applicationId == id && r.creditScore == Some(s)
  }

  /** One step: store the row's score when nothing (or 0) is stored, or when
      the first row of the whole response carrying the stored score is
      older than this row. */
  function RiskStep(raw: seq<ScoreRow>, m: map<string, int>, row: ScoreRow): (m': map<string, int>)
    ensures !Truthy(row) ==> m' == m
    ensures forall id :: id in m' <==> id in m || (Truthy(row) && id == row.applicationId)
    ensures forall id :: id in m && id != row.applicationId ==> m'[id] == m[id]
    ensures Truthy(row) ==>
      m'[row.applicationId] == row.creditScore.value
      || (row.applicationId in m && m'[row.applicationId] == m[row.applicationId])
    ensures Truthy(row) && (row.applicationId !in m || m[row.applicationId] == 0) ==>
      m'[row.applicationId] == row.creditScore.value
  {
    if !Truthy(row) then m
    else
      var id := row.applicationId;
      if id !in m || m[id] == 0 then m[id := row.creditScore.value]
      else
        match FindIndex(raw, SameScore(id, m[id]))
        case None => m
        case Some(k) => if row.scoredAt > raw[k].scoredAt then m[id := row.creditScore.value] else m
  }

  /** The fold over `rows` (a prefix of the response `raw` while it runs). */
  function RiskFold(raw: seq<ScoreRow>, rows: seq<ScoreRow>): (m: map<string, int>)
    ensures forall id :: id in m ==> id != "" && m[id] != 0
  {
    if |rows| == 0 then map[]
    else RiskStep(raw, RiskFold(raw, rows[..|rows| - 1]), rows[|rows| - 1])
  }

  /** The widget's score map: the fold over the whole response. An
      application is in it exactly when it has a kept row, and its stored
      score is never 0. */
  function RiskLatest(raw: seq<ScoreRow>): (m: map<string, int>)
    ensures forall id :: id in m <==> Submitted(raw, Truthy, id)
    ensures forall id :: id in m ==> id != "" && m[id] != 0
  {
    RiskFoldAllKeys(raw);
    RiskFold(raw, raw)
  }

  lemma RiskFoldAllKeys(raw: seq<ScoreRow>)
    ensures forall id :: id in RiskFold(raw, raw) <==> Submitted(raw, Truthy, id)
  {
    forall id
      ensures id in RiskFold(raw, raw) <==> Submitted(raw, Truthy, id)
    {
      RiskFoldKeys(raw, raw, id);
    }
  }

  /** The fold resolves exactly the applications that have a kept row. */
  lemma {:induction false} RiskFoldKeys(raw: seq<ScoreRow>, rows: seq<ScoreRow>, id: string)
    ensures id in RiskFold(raw, rows) <==> Submitted(rows, Truthy, id)
  {
    if |rows| > 0 {
      var n := |rows| - 1;
      var pre := rows[..n];
      RiskFoldKeys(raw, pre, id);
      if Submitted(rows, Truthy, id) {
        var i :| 0 <= i < |rows| && Truthy(rows[i]) && rows[i].applicationId == id;
        if i < n {
          assert pre[i] == rows[i];
        }
      }
      if Submitted(pre, Truthy, id) {
        var i :| 0 <= i < |pre| && Truthy(pre[i]) && pre[i].applicationId == id;
        assert rows[i] == pre[i];
      }
    }
  }

  /** Equal truthy scores of one application carry the same timestamp. This
      holds in particular when each application's scores are pairwise
      distinct. */
  ghost predicate EqualScoresShareTime(raw: seq<ScoreRow>)
  {
    forall i, j ::
      (0 <= i < |raw| && 0 <= j < |raw| && Truthy(raw[i]) && Truthy(raw[j]) &&
       raw[i].applicationId == raw[j].applicationId && raw[i].creditScore == raw[j].creditScore) ==>
        raw[i].scoredAt == raw[j].scoredAt
  }

  ghost predicate DistinctScores(raw: seq<ScoreRow>)
  {
    forall i, j ::
      (0 <= i < j < |raw| && Truthy(raw[i]) && Truthy(raw[j]) &&
       raw[i].applicationId == raw[j].applicationId) ==> raw[i].creditScore != raw[j].creditScore
  }

  lemma DistinctScoresShareTime(raw: seq<ScoreRow>)
    requires DistinctScores(raw)
    ensures EqualScoresShareTime(raw)
  {
  }

  /** Under `EqualScoresShareTime` the search by score finds a row as old as
      the stored one, so each step agrees with the shared fold. */
  lemma RiskStepAgrees(raw: seq<ScoreRow>, m: map<string, int>, l: map<string, ScoreRow>, row: ScoreRow)
    requires EqualScoresShareTime(raw)
    requires forall id :: id in m <==> id in l
    requires forall id :: id in l ==> l[id] in raw && Truthy(l[id]) && l[id].applicationId == id
    requires forall id :: id in m ==> Some(m[id]) == l[id].creditScore
    ensures var m' := RiskStep(raw, m, row);
      var l' := Step(l, row, Truthy);
      && (forall id :: id in m' <==> id in l')
      && (forall id :: id in m' ==> Some(m'[id]) == l'[id].creditScore)
  {
    if Truthy(row) && row.applicationId in m {
      var id := row.applicationId;
      var q :| 0 <= q < |raw| && raw[q] == l[id];
      var p := SameScore(id, m[id]);
      assert p(raw[q]);
      var k := FindIndex(raw, p);
      assert k.Some?;
      assert raw[k.value].scoredAt == raw[q].scoredAt;
    }
  }

  /** With equal scores sharing a timestamp, the widget keeps for every
      application the score of the shared fold's latest row. */
  lemma {:induction false} RiskFoldIsLatest(raw: seq<ScoreRow>, rows: seq<ScoreRow>)
    requires EqualScoresShareTime(raw)
    requires forall i :: 0 <= i < |rows| ==> rows[i] in raw
    ensures forall id :: id in RiskFold(raw, rows) <==> id in LatestBy(rows, Truthy)
    ensures forall id :: id in RiskFold(raw, rows) ==>
      Some(RiskFold(raw, rows)[id]) == LatestBy(rows, Truthy)[id].creditScore
  {
    if |rows| > 0 {
      var n := |rows| - 1;
      var pre := rows[..n];
      assert forall i :: 0 <= i < n ==> pre[i] == rows[i];
      RiskFoldIsLatest(raw, pre);
      var l := LatestBy(pre, Truthy);
      assert forall id :: id in l ==> l[id] in raw;
      RiskStepAgrees(raw, RiskFold(raw, pre), l, rows[n]);
    }
  }

  /** Hence, for each application, the kept score is the one of its latest
      row, the first seen among equally late ones. */
  lemma RiskLatestIsLatest(raw: seq<ScoreRow>, id: string) returns (j: int)
    requires EqualScoresShareTime(raw)
    requires id in RiskLatest(raw)
    ensures IsLatest(raw, Truthy, id, j) && raw[j].creditScore == Some(RiskLatest(raw)[id])
  {
    RiskFoldIsLatest(raw, raw);
    j := LatestRow(raw, Truthy, id);
  }

  /** Without the hypothesis the search can land on an older row with the
      same score. Application `id` is scored `x` at time `t0`, `x` again at
      `t1` and `y` at `t2`, with `t0 < t2 < t1`: the latest row says `x`,
      but the third row is compared with the first (time `t0`) and `y` is
      kept. With `x = 50`, `y = 70` and times 1, 10, 5 the pie counts the
      application as moderate risk although its latest score is high risk. */
  lemma RepeatedScoreKeepsOlderScore(raw: seq<ScoreRow>, id: string, x: int, y: int)
    requires |raw| == 3 && id != "" && x != 0 && y != 0 && x != y
    requires forall i :: 0 <= i < 3 ==> raw[i].applicationId == id
    requires raw[0].creditScore == Some(x) && raw[1].creditScore == Some(x) && raw[2].creditScore == Some(y)
    requires raw[0].scoredAt < raw[2].scoredAt < raw[1].scoredAt
    ensures RiskLatest(raw) == map[id := y]
    ensures LatestBy(raw, Truthy)[id] == raw[1]
    ensures !EqualScoresShareTime(raw)
  {
    RepeatedScoreFold(raw, id, x, y);
    RepeatedScoreLatest(raw, id, x, y);
    assert Truthy(raw[0]) && Truthy(raw[1]) && raw[0].scoredAt != raw[1].scoredAt;
  }

  lemma RepeatedScoreFold(raw: seq<ScoreRow>, id: string, x: int, y: int)
    requires |raw| == 3 && id != "" && x != 0 && y != 0 && x != y
    requires forall i :: 0 <= i < 3 ==> raw[i].applicationId == id
    requires raw[0].creditScore == Some(x) && raw[1].creditScore == Some(x) && raw[2].creditScore == Some(y)
    requires raw[0].scoredAt < raw[2].scoredAt < raw[1].scoredAt
    ensures RiskLatest(raw) == map[id := y]
  {
    assert FindIndex(raw, SameScore(id, x)) == Some(0);
    var m1 := map[id := x];
    assert raw[..1][..0] == [];
    assert RiskFold(raw, raw[..1]) == m1;
    assert raw[..2][..1] == raw[..1];
    assert RiskFold(raw, raw[..2]) == m1;
    assert raw[..3] == raw;
  }

  lemma RepeatedScoreLatest(raw: seq<ScoreRow>, id: string, x: int, y: int)
    requires |raw| == 3 && id != "" && x != 0 && y != 0 && x != y
    requires forall i :: 0 <= i < 3 ==> raw[i].applicationId == id
    requires raw[0].creditScore == Some(x) && raw[1].creditScore == Some(x) && raw[2].creditScore == Some(y)
    requires raw[0].scoredAt < raw[2].scoredAt < raw[1].scoredAt
    ensures LatestBy(raw, Truthy)[id] == raw[1]
  {
    assert raw[..1][..0] == [];
    assert LatestBy(raw[..1], Truthy) == map[id := raw[0]];
    assert raw[..2][..1] == raw[..1];
    assert LatestBy(raw[..2], Truthy) == map[id := raw[1]];
    assert raw[..3] == raw;
  }

  // ---------------------------------------------------------------------
  // Counting

  /** The stored scores, one per resolved application, in the map's
      iteration order. */
  function LatestScores(raw: seq<ScoreRow>): (vs: seq<int>)
    ensures |vs| == |FirstSeenIds(raw, Truthy)|
    ensures forall k :: 0 <= k < |vs| ==>
      FirstSeenIds(raw, Truthy)[k] in RiskLatest(raw) && vs[k] == RiskLatest(raw)[FirstSeenIds(raw, Truthy)[k]]
  {
    var ids := FirstSeenIds(raw, Truthy);
    RiskLatestKeys(raw);
    ValuesAt(RiskLatest(raw), ids)
  }

  lemma RiskLatestKeys(raw: seq<ScoreRow>)
    ensures forall id :: id in RiskLatest(raw) <==> id in FirstSeenIds(raw, Truthy)
  {
  }

  /** `counts[bucketIndex]++` for a score that found a bucket. */
  function Tally(counts: seq<nat>, score: int): (c: seq<nat>)
    requires |counts| == 4
    ensures |c| == 4
    ensures FindBucket(score).None? ==> c == counts
    ensures FindBucket(score).Some? ==>
      && c[FindBucket(score).value] == counts[FindBucket(score).value] + 1
      && forall j :: 0 <= j < 4 && j != FindBucket(score).value ==> c[j] == counts[j]
  {
    match FindBucket(score)
    case None => counts
    case Some(k) => counts[k := counts[k] + 1]
  }

  /** The per-bucket counts of `vs`. */
  function Counts(vs: seq<int>): (c: seq<nat>)
    ensures |c| == 4
    ensures c[0] + c[1] + c[2] + c[3] <= |vs|
  {
    if |vs| == 0 then [0, 0, 0, 0] else Tally(Counts(vs[1..]), vs[0])
  }

  function InBucketAt(k: nat): int -> bool
  {
    (v: int) => FindBucket(v) == Some(k)
  }

  function Bucketed(v: int): bool { FindBucket(v).Some? }

  /** Each count is the number of scores falling in that bucket. */
  lemma {:induction false} CountsAreFilters(vs: seq<int>, k: nat)
    requires k < 4
    ensures Counts(vs)[k] == |Filter(vs, InBucketAt(k))|
  {
    if |vs| > 0 {
      CountsAreFilters(vs[1..], k);
    }
  }

  function Total(c: seq<nat>): nat
    requires |c| == 4
  {
    c[0] + c[1] + c[2] + c[3]
  }

  /** The sum of the bucket counts counts every score that lies in a
      bucket, which is every score up to 100. */
  lemma {:induction false} TotalIsBucketed(vs: seq<int>)
    ensures Total(Counts(vs)) == |Filter(vs, Bucketed)|
    ensures Total(Counts(vs)) == |Filter(vs, (v: int) => v <= 100)|
  {
    if |vs| > 0 {
      TotalIsBucketed(vs[1..]);
      BucketsPartition(vs[0]);
    }
  }

  // ---------------------------------------------------------------------
  // Percentages

  datatype PieEntry = PieEntry(name: string, value: int)

  /** A bucket's share of the total as a whole percentage, rounded with
      `Math.round`, or 0 when nothing was counted. */
  function Percent(count: nat, total: nat): (p: int)
    ensures total == 0 ==> p == 0
    ensures total > 0 ==> (count as real / total as real) * 100.0 - 0.5 < p as real
    ensures total > 0 ==> p as real <= (count as real / total as real) * 100.0 + 0.5
    ensures total > 0 && count <= total ==> 0 <= p <= 100
  {
    if total == 0 then 0
    else
      var x := (count as real / total as real) * 100.0;
      if count <= total then
        RoundedShareBounds(count, total);
        JsRound(x)
      else JsRound(x)
  }

  /** The four entries, in bucket order. */
  function Pie(c: seq<nat>): (entries: seq<PieEntry>)
    requires |c| == 4
    ensures |entries| == 4
    ensures forall k :: 0 <= k < 4 ==> entries[k].name == RiskBuckets[k].name
    ensures forall k :: 0 <= k < 4 ==> entries[k].value == Percent(c[k], Total(c))
  {
    seq(4, k requires 0 <= k < 4 => PieEntry(RiskBuckets[k].name, Percent(c[k], Total(c))))
  }

  /** With at least one bucketed score the percentages add up to between 99
      and 102 (each is within one half of its exact share); with none they
      are all 0. */
  lemma PieSum(c: seq<nat>)
    requires |c| == 4
    ensures Total(c) == 0 ==> forall k :: 0 <= k < 4 ==> Pie(c)[k].value == 0
    ensures Total(c) > 0 ==> 99 <= Pie(c)[0].value + Pie(c)[1].value + Pie(c)[2].value + Pie(c)[3].value <= 102
    ensures forall k :: 0 <= k < 4 ==> 0 <= Pie(c)[k].value <= 100
  {
    var t := Total(c);
    if t > 0 {
      var x0 := c[0] as real / t as real * 100.0;
      var x1 := c[1] as real / t as real * 100.0;
      var x2 := c[2] as real / t as real * 100.0;
      var x3 := c[3] as real / t as real * 100.0;
      ShareSum(c[0], c[1], c[2], c[3]);
      assert x0 + x1 + x2 + x3 == 100.0;
    }
  }

  lemma ShareSum(a: nat, b: nat, c: nat, d: nat)
    requires a + b + c + d > 0
    ensures var t := (a + b + c + d) as real;
      a as real / t * 100.0 + b as real / t * 100.0 + c as real / t * 100.0 + d as real / t * 100.0 == 100.0
  {
    var t := (a + b + c + d) as real;
    assert a as real / t + b as real / t + c as real / t + d as real / t == (a + b + c + d) as real / t;
  }

  // ---------------------------------------------------------------------
  // The widget

  /** The query's window: rows scored at or after `since`. */
  function ScoredSince(since: int): ScoreRow -> bool
  {
    (r: ScoreRow) => r.scoredAt >= since
  }

  /** The four entries shown before any data (`riskData ?? ...value: 0`). */
  const ZeroPie: seq<PieEntry> := [
    PieEntry(RiskBuckets[0].name, 0), PieEntry(RiskBuckets[1].name, 0),
    PieEntry(RiskBuckets[2].name, 0), PieEntry(RiskBuckets[3].name, 0)
  ]

  /** The pie of a list of scores: entry `k` is bucket `k`'s rounded share of
      the scores that found a bucket. */
  function PieOf(vs: seq<int>): (entries: seq<PieEntry>)
    ensures |entries| == 4
    ensures forall k :: 0 <= k < 4 ==> entries[k].name == RiskBuckets[k].name
    ensures forall k :: 0 <= k < 4 ==> 0 <= entries[k].value <= 100
    ensures forall k :: 0 <= k < 4 ==>
      entries[k].value == Percent(|Filter(vs, InBucketAt(k))|, |Filter(vs, Bucketed)|)
  {
    CountsAreFilters(vs, 0);
    CountsAreFilters(vs, 1);
    CountsAreFilters(vs, 2);
    CountsAreFilters(vs, 3);
    TotalIsBucketed(vs);
    var c := Counts(vs);
    PieSum(c);
    Pie(c)
  }

  /** The computed entries of a response: entry `k` is bucket `k`'s rounded
      share of the stored scores that found a bucket. */
  function Distribution(raw: seq<ScoreRow>): (entries: seq<PieEntry>)
    ensures |entries| == 4
    ensures forall k :: 0 <= k < 4 ==> entries[k].name == RiskBuckets[k].name
    ensures forall k :: 0 <= k < 4 ==> 0 <= entries[k].value <= 100
    ensures forall k :: 0 <= k < 4 ==>
      entries[k].value == Percent(|Filter(LatestScores(raw), InBucketAt(k))|, |Filter(LatestScores(raw), Bucketed)|)
  {
    PieOf(LatestScores(raw))
  }

  /** `fetchRiskBuckets`: an error leaves `riskData` null (the zero pie is
      drawn); a rejected request escapes and the widget keeps loading; a
      response without data counts nothing. */
  function Fetch(since: int, scores: Response<ScoreRow>): (v: Loadable<Option<seq<PieEntry>>>)
    ensures scores.Rejected? ==> v == Loading
    ensures scores.Errored? ==> v == Loaded(None)
    ensures scores.Rows? ==> v == Loaded(Some(Distribution(Filter(scores.data, ScoredSince(since)))))
    ensures scores.NoRows? ==>
      && v.Loaded? && v.value.Some? && |v.value.value| == 4
      && forall k :: 0 <= k < 4 ==> v.value.value[k].value == 0
  {
    match scores
    case Rejected => Loading
    case Errored => Loaded(None)
    case NoRows => Loaded(Some(Distribution([])))
    case Rows(rows) => Loaded(Some(Distribution(Filter(rows, ScoredSince(since)))))
  }

  /** What the chart and the legend show: always four entries in bucket
      order. */
  function Shown(v: Loadable<Option<seq<PieEntry>>>): (entries: seq<PieEntry>)
    requires v.Loaded? && v.value.Some? ==> |v.value.value| == 4
    ensures |entries| == 4
    ensures v.Loading? || v.value.None? ==> entries == ZeroPie
  {
    if v.Loaded? && v.value.Some? then v.value.value else ZeroPie
  }

  lemma ShownNames(since: int, scores: Response<ScoreRow>)
    ensures var v := Fetch(since, scores);
      (v.Loaded? && v.value.Some? ==> |v.value.value| == 4) &&
      forall k :: 0 <= k < 4 ==> Shown(v)[k].name == RiskBuckets[k].name
  {
  }
}

=== FILE: score_trends.dfy ===
/** The "Credit Score Trends" chart: the latest score of every application
    scored this year, grouped by the calendar month of that score, one row
    per month that has any, with the month's mean score rounded to two
    decimals and its number of applications. */
module ScoreTrends {
  import opened Js
  import opened Seqs
  import opened Records
  import opened LatestScore

  const Months: seq<string> :=
    ["Jan", "Feb", "Mar", "Apr", "May", "Jun", "Jul", "Aug", "Sep", "Oct", "Nov", "Dec"]

  /** The rows the fold keeps: a missing id or a missing score skips the
      row; a score of 0 is kept. */
  predicate TrendKeep(r: ScoreRow)
  {
    r.applicationId != "" && r.creditScore.Some?
  }

  /** Unlike the risk pie, the trend chart keeps a score of 0. */
  lemma ZeroScoreIsKept(r: ScoreRow)
    requires r.applicationId != "" && r.creditScore == Some(0)
    ensures TrendKeep(r)
  {
  }

  /** The row kept for an application is its latest kept row; of equally late
      rows the first one seen. */
  lemma TrendLatest(rows: seq<ScoreRow>, id: string) returns (j: int)
    requires Submitted(rows, TrendKeep, id)
    ensures id in LatestBy(rows, TrendKeep)
    ensures IsLatest(rows, TrendKeep, id, j) && LatestBy(rows, TrendKeep)[id] == rows[j]
  {
    LatestKey(rows, TrendKeep, id);
    j := LatestRow(rows, TrendKeep, id);
  }

  // ---------------------------------------------------------------------
  // Grouping by month

  /** The row's score, a missing one read as 0. */
  function ScoreOr0(r: ScoreRow): int
  {
    if r.creditScore.Some? && r.creditScore.value != 0 then r.creditScore.value else 0
  }

  function InMonth(m: int): ScoreRow -> bool
  {
    (r: ScoreRow) => r.month == m
  }

  function ScoresOf(rs: seq<ScoreRow>): (xs: seq<int>)
    ensures |xs| == |rs|
    ensures forall k :: 0 <= k < |rs| ==> xs[k] == ScoreOr0(rs[k])
  {
    if |rs| == 0 then [] else [ScoreOr0(rs[0])] + ScoresOf(rs[1..])
  }

  /** `monthly[m]`: the scores of the kept rows falling in month `m`, in
      iteration order. */
  function MonthScores(kept: seq<ScoreRow>, m: int): (xs: seq<int>)
    ensures |xs| == |Filter(kept, InMonth(m))|
  {
    ScoresOf(Filter(kept, InMonth(m)))
  }

  datatype MonthRow = MonthRow(month: string, avgScore: real, applications: nat)

  /** The chart row of month `m`. */
  function RowOf(kept: seq<ScoreRow>, m: Month): (row: MonthRow)
    ensures row.month == Months[m]
    ensures row.applications == |Filter(kept, InMonth(m))|
    ensures row.applications == 0 ==> row.avgScore == 0.0
    ensures IsHundredths(row.avgScore)
    ensures row.applications > 0 ==>
      Min(MonthScores(kept, m)) as real <= row.avgScore <= Max(MonthScores(kept, m)) as real
    ensures row.applications > 0 ==>
      Abs(row.avgScore - Mean(MonthScores(kept, m))) <= 0.005
  {
    var xs := MonthScores(kept, m);
    MonthRow(Months[m], MeanRounded(xs), |xs|)
  }

  /** The month rows from month `from` to December. */
  function RowsFrom(kept: seq<ScoreRow>, from: nat): (rows: seq<MonthRow>)
    requires from <= 12
    ensures |rows| == 12 - from
    decreases 12 - from
  {
    if from == 12 then [] else [RowOf(kept, from)] + RowsFrom(kept, from + 1)
  }

  predicate HasApplications(row: MonthRow) { row.applications > 0 }

  /** `chartRows`: the twelve month rows without the empty ones. */
  function ChartRows(kept: seq<ScoreRow>): (rows: seq<MonthRow>)
    ensures |rows| <= 12
    ensures forall k :: 0 <= k < |rows| ==> rows[k].applications > 0
  {
    Filter(RowsFrom(kept, 0), HasApplications)
  }

  // ---------------------------------------------------------------------
  // The months that have data

  /** Reference definition: the months from `from` on with at least one kept
      row, in calendar order. */
  function ActiveMonths(kept: seq<ScoreRow>, from: nat): (ms: seq<Month>)
    requires from <= 12
    ensures |ms| <= 12 - from
    ensures forall i, j :: 0 <= i < j < |ms| ==> ms[i] < ms[j]
    ensures forall k :: 0 <= k < |ms| ==> from <= ms[k]
    ensures forall m: Month :: m in ms <==> from <= m && |Filter(kept, InMonth(m))| > 0
    decreases 12 - from
  {
    if from == 12 then []
    else
      var rest := ActiveMonths(kept, from + 1);
      if |Filter(kept, InMonth(from))| > 0 then
        var ms := [from as Month] + rest;
        assert forall k :: 0 < k < |ms| ==> ms[k] == rest[k - 1];
        ms
      else rest
  }

  function RowsOf(kept: seq<ScoreRow>, ms: seq<Month>): (rows: seq<MonthRow>)
    ensures |rows| == |ms|
    ensures forall k :: 0 <= k < |ms| ==> rows[k] == RowOf(kept, ms[k])
  {
    if |ms| == 0 then [] else [RowOf(kept, ms[0])] + RowsOf(kept, ms[1..])
  }

  /** Dropping the empty rows leaves exactly the rows of the active months,
      in calendar order. */
  lemma {:induction false} ChartRowsAreActiveMonths(kept: seq<ScoreRow>, from: nat)
    requires from <= 12
    ensures Filter(RowsFrom(kept, from), HasApplications) == RowsOf(kept, ActiveMonths(kept, from))
    decreases 12 - from
  {
    if from < 12 {
      ChartRowsAreActiveMonths(kept, from + 1);
      var ms := ActiveMonths(kept, from + 1);
      if |Filter(kept, InMonth(from))| > 0 {
        assert ([from as Month] + ms)[1..] == ms;
      }
    }
  }

  /** The chart has at most twelve rows, one per month that has a kept row,
      in calendar order, each with that month's figures. */
  lemma ChartShape(kept: seq<ScoreRow>)
    ensures var rows := ChartRows(kept);
      var ms := ActiveMonths(kept, 0);
      && |rows| == |ms| <= 12
      && (forall k :: 0 <= k < |rows| ==> rows[k] == RowOf(kept, ms[k]) && rows[k].applications > 0)
      && (forall i, j :: 0 <= i < j < |rows| ==> ms[i] < ms[j] && rows[i].month != rows[j].month)
  {
    var ms := ActiveMonths(kept, 0);
    ChartOfActiveMonths(kept, ms);
    var rows := RowsOf(kept, ms);
    forall i, j | 0 <= i < j < |rows|
      ensures rows[i].month != rows[j].month
    {
      MonthNamesDistinct(ms[i], ms[j]);
    }
  }

  lemma MonthNamesDistinct(a: Month, b: Month)
    requires a != b
    ensures Months[a] != Months[b]
  {
  }

  // ---------------------------------------------------------------------
  // Every resolved application is counted once

  function SumApplications(rows: seq<MonthRow>): nat
  {
    if |rows| == 0 then 0 else rows[0].applications + SumApplications(rows[1..])
  }

  lemma {:induction false} SumOfFiltered(rows: seq<MonthRow>)
    ensures SumApplications(Filter(rows, HasApplications)) == SumApplications(rows)
  {
    if |rows| > 0 {
      SumOfFiltered(rows[1..]);
    }
  }

  function FromMonth(m: int): ScoreRow -> bool
  {
    (r: ScoreRow) => r.month >= m
  }

  /** The rows of months `from` and later are those of month `from` plus
      those of months `from + 1` and later. */
  lemma {:induction false} SplitMonth(kept: seq<ScoreRow>, from: int)
    ensures |Filter(kept, FromMonth(from))| ==
      |Filter(kept, InMonth(from))| + |Filter(kept, FromMonth(from + 1))|
  {
    if |kept| > 0 {
      SplitMonth(kept[1..], from);
    }
  }

  lemma {:induction false} SumRowsFrom(kept: seq<ScoreRow>, from: nat)
    requires from <= 12
    ensures SumApplications(RowsFrom(kept, from)) == |Filter(kept, FromMonth(from))|
    decreases 12 - from
  {
    if from < 12 {
      SumRowsFrom(kept, from + 1);
      SplitMonth(kept, from);
      assert RowsFrom(kept, from)[1..] == RowsFrom(kept, from + 1);
    } else {
      NoneFromTwelve(kept);
    }
  }

  lemma {:induction false} NoneFromTwelve(kept: seq<ScoreRow>)
    ensures Filter(kept, FromMonth(12)) == []
  {
    if |kept| > 0 {
      NoneFromTwelve(kept[1..]);
    }
  }

  lemma {:induction false} AllFromZero(kept: seq<ScoreRow>)
    ensures Filter(kept, FromMonth(0)) == kept
  {
    if |kept| > 0 {
      AllFromZero(kept[1..]);
    }
  }

  /** Each kept row lands in exactly one month, so the applications of the
      chart add up to the number of kept rows. */
  lemma ApplicationsAddUp(kept: seq<ScoreRow>)
    ensures SumApplications(ChartRows(kept)) == |kept|
  {
    SumOfFiltered(RowsFrom(kept, 0));
    SumRowsFrom(kept, 0);
    AllFromZero(kept);
  }

  // ---------------------------------------------------------------------
  // The widget

  /** The query's window: rows scored at or after `since`. */
  function ScoredSince(since: int): ScoreRow -> bool
  {
    (r: ScoreRow) => r.scoredAt >= since
  }

  /** The chart of a response's rows. */
  function Series(rows: seq<ScoreRow>): (chart: seq<MonthRow>)
    ensures |chart| <= 12
    ensures SumApplications(chart) == |FirstSeenIds(rows, TrendKeep)|
  {
    var kept := Resolved(rows, TrendKeep);
    ChartShape(kept);
    ApplicationsAddUp(kept);
    ChartRows(kept)
  }

  /** `fetchTrends`: an error or a missing result gives an empty chart; a
      rejected request escapes and the chart keeps loading. */
  function Fetch(since: int, scores: Response<ScoreRow>): (v: Loadable<seq<MonthRow>>)
    ensures scores.Rejected? ==> v == Loading
    ensures scores.Errored? || scores.NoRows? ==> v == Loaded([])
    ensures scores.Rows? ==> v == Loaded(Series(Filter(scores.data, ScoredSince(since))))
  {
    match scores
    case Rejected => Loading
    case Errored => Loaded([])
    case NoRows => Loaded([])
    case Rows(rows) => Loaded(Series(Filter(rows, ScoredSince(since))))
  }

  /** A row older than the kept row of its application, or one the fold
      skips, changes nothing in the chart. */
  lemma OlderRowChangesNothing(rows: seq<ScoreRow>, r: ScoreRow)
    requires TrendKeep(r) ==> r.applicationId in LatestBy(rows, TrendKeep)
    requires TrendKeep(r) ==> r.scoredAt <= LatestBy(rows, TrendKeep)[r.applicationId].scoredAt
    ensures Series(rows + [r]) == Series(rows)
  {
    AppendOlderRow(rows, TrendKeep, r);
  }

  /** Three kept rows: scores of 70 and 90 in January and 80 in March. */
  predicate JanJanMar(kept: seq<ScoreRow>)
  {
    && |kept| == 3
    && kept[0].month == 0 && kept[0].creditScore == Some(70)
    && kept[1].month == 0 && kept[1].creditScore == Some(90)
    && kept[2].month == 2 && kept[2].creditScore == Some(80)
  }

  /** They give a January row averaging 80 over two applications and a
      March row of 80 over one. */
  lemma JanuaryAndMarch(kept: seq<ScoreRow>)
    requires JanJanMar(kept)
    ensures ChartRows(kept) == [MonthRow("Jan", 80.0, 2), MonthRow("Mar", 80.0, 1)]
  {
    ExampleMonths(kept);
    ChartOfActiveMonths(kept, [0, 2]);
    RowsOfTwo(kept, 0, 2);
    ExampleJanuary(kept);
    ExampleMarch(kept);
  }

  lemma ChartOfActiveMonths(kept: seq<ScoreRow>, ms: seq<Month>)
    requires ActiveMonths(kept, 0) == ms
    ensures ChartRows(kept) == RowsOf(kept, ms)
  {
    ChartRowsAreActiveMonths(kept, 0);
  }

  lemma RowsOfTwo(kept: seq<ScoreRow>, a: Month, b: Month)
    ensures RowsOf(kept, [a, b]) == [RowOf(kept, a), RowOf(kept, b)]
  {
    var rows := RowsOf(kept, [a, b]);
    assert |rows| == 2 && rows[0] == RowOf(kept, a) && rows[1] == RowOf(kept, b);
  }

  lemma ExampleMonths(kept: seq<ScoreRow>)
    requires JanJanMar(kept)
    ensures ActiveMonths(kept, 0) == [0, 2]
  {
    NoMonthsFrom(kept, 3);
    assert InMonth(2)(kept[2]);
    assert ActiveMonths(kept, 2) == [2];
    NoRowsInMonth(kept, 1);
    assert ActiveMonths(kept, 1) == [2];
    assert InMonth(0)(kept[0]);
  }

  lemma {:induction false} NoRowsInMonth(kept: seq<ScoreRow>, m: int)
    requires forall i :: 0 <= i < |kept| ==> kept[i].month != m
    ensures Filter(kept, InMonth(m)) == []
  {
    if |kept| > 0 {
      NoRowsInMonth(kept[1..], m);
    }
  }

  /** No month from `from` on is active when every row is earlier. */
  lemma {:induction false} NoMonthsFrom(kept: seq<ScoreRow>, from: nat)
    requires from <= 12
    requires forall i :: 0 <= i < |kept| ==> kept[i].month < from
    ensures ActiveMonths(kept, from) == []
    decreases 12 - from
  {
    if from < 12 {
      NoRowsInMonth(kept, from);
      NoMonthsFrom(kept, from + 1);
    }
  }

  lemma ExampleJanuary(kept: seq<ScoreRow>)
    requires JanJanMar(kept)
    ensures RowOf(kept, 0) == MonthRow("Jan", 80.0, 2)
  {
    assert kept == kept[..2] + [kept[2]];
    FilterAppend(kept[..2], [kept[2]], InMonth(0));
    assert Filter(kept, InMonth(0)) == kept[..2];
    var xs := MonthScores(kept, 0);
    assert xs == [70, 90];
    assert Sum(xs) == 80 * 2 by {
      assert xs[..1] == [70];
      assert [70][..0] == [];
    }
    MeanRoundedOfWhole(xs, 80);
  }

  lemma ExampleMarch(kept: seq<ScoreRow>)
    requires JanJanMar(kept)
    ensures RowOf(kept, 2) == MonthRow("Mar", 80.0, 1)
  {
    assert kept == kept[..2] + [kept[2]];
    FilterAppend(kept[..2], [kept[2]], InMonth(2));
    NoRowsInMonth(kept[..2], 2);
    assert Filter([kept[2]], InMonth(2)) == [kept[2]];
    SingleScore(kept[2], 80);
    MeanRoundedOfWhole([80], 80);
  }

  /** The scores of one row with a non-zero score. */
  lemma SingleScore(r: ScoreRow, v: int)
    requires r.creditScore == Some(v) && v != 0
    ensures ScoresOf([r]) == [v] && Sum([v]) == v * 1
  {
    assert [v][..0] == [];
  }
}

=== FILE: seqs.dfy ===
/** The array methods the dashboard code uses — `filter`, `findIndex` and
    `.filter(p).length` — with the facts about them the widgets need. */
module Seqs {
  import opened Js

  /** `s.filter(p)`: the elements satisfying `p`, in their original order. */
  function Filter<T>(s: seq<T>, p: T -> bool): (r: seq<T>)
    ensures |r| <= |s|
    ensures forall i :: 0 <= i < |r| ==> p(r[i])
    ensures forall i :: 0 <= i < |r| ==> r[i] in s
    ensures forall i :: 0 <= i < |s| && p(s[i]) ==> s[i] in r
  {
    if |s| == 0 then []
    else
      var rest := Filter(s[1..], p);
      assert forall i :: 1 <= i < |s| ==> s[i] == s[1..][i - 1];
      if p(s[0]) then [s[0]] + rest else rest
  }

  lemma {:induction false} FilterAppend<T>(a: seq<T>, b: seq<T>, p: T -> bool)
    ensures Filter(a + b, p) == Filter(a, p) + Filter(b, p)
  {
    if |a| == 0 {
      assert a + b == b;
    } else {
      assert (a + b)[1..] == a[1..] + b;
      FilterAppend(a[1..], b, p);
    }
  }

  /** Filtering with `q` after `p` keeps what both accept. */
  lemma {:induction false} FilterFilter<T>(s: seq<T>, p: T -> bool, q: T -> bool, pq: T -> bool)
    requires forall x :: pq(x) == (p(x) && q(x))
    ensures Filter(Filter(s, p), q) == Filter(s, pq)
  {
    if |s| > 0 {
      FilterFilter(s[1..], p, q, pq);
    }
  }

  /** Two predicates that never hold together select at most `|s|` elements
      between them: no element is counted by both. */
  lemma {:induction false} DisjointFilters<T>(s: seq<T>, p: T -> bool, q: T -> bool)
    requires forall x :: p(x) ==> !q(x)
    ensures |Filter(s, p)| + |Filter(s, q)| <= |s|
  {
    if |s| > 0 {
      DisjointFilters(s[1..], p, q);
    }
  }

  /** `s.findIndex(p)`: the first index whose element satisfies `p`, or
      `None` (JavaScript's -1) when there is none. */
  function FindIndex<T>(s: seq<T>, p: T -> bool): (r: Option<nat>)
    ensures r.Some? ==> r.value < |s| && p(s[r.value])
    ensures r.Some? ==> forall j :: 0 <= j < r.value ==> !p(s[j])
    ensures r.None? ==> forall j :: 0 <= j < |s| ==> !p(s[j])
  {
    if |s| == 0 then None
    else if p(s[0]) then Some(0)
    else
      match FindIndex(s[1..], p)
      case None => None
      case Some(k) => Some(k + 1)
  }

  /** The values a map holds for `ids`, in the order of `ids`: how a
      JavaScript `Map` is read out key by key. */
  function ValuesAt<K, V>(m: map<K, V>, ids: seq<K>): (vs: seq<V>)
    requires forall k :: 0 <= k < |ids| ==> ids[k] in m
    ensures |vs| == |ids|
    ensures forall k :: 0 <= k < |ids| ==> vs[k] == m[ids[k]]
  {
    if |ids| == 0 then [] else [m[ids[0]]] + ValuesAt(m, ids[1..])
  }
}

=== FILE: stats_grid.dfy ===
/** The statistics cards of the dashboard: month-over-month comparisons of
    application volume, approvals, average score, loan volume and success
    rate, each shown with a signed percentage change and an up/down trend. */
module StatsGrid {
  import opened Js
  import opened Seqs
  import opened Text
  import opened Records

  // ---------------------------------------------------------------------
  // Percentage change

  /** A displayed change: "0%", "+n%" or "-n%". */
  datatype Change = Zero | Plus(n: nat) | Minus(n: nat)
  {
    /** The change as a signed whole number of percent. */
    function Signed(): int
    {
      match this
      case Zero => 0
      case Plus(n) => n
      case Minus(n) => -(n as int)
    }

    /** A signed change never carries a zero magnitude. */
    predicate Valid()
    {
      match this
      case Zero => true
      case Plus(n) => n > 0
      case Minus(n) => n > 0
    }
  }

  /** The text shown for a change: a sign, the magnitude's numeral, then
      "%"; no sign for no change. */
  function Render(c: Change): (s: string)
    ensures |s| >= 2 && s[|s| - 1] == '%'
    ensures c.Zero? <==> s == "0%"
    ensures c.Plus? <==> s[0] == '+'
    ensures c.Minus? <==> s[0] == '-'
    ensures !c.Zero? ==> s[1..|s| - 1] == NatToString(c.n)
  {
    match c
    case Zero => "0%"
    case Plus(n) => "+" + NatToString(n) + "%"
    case Minus(n) => "-" + NatToString(n) + "%"
  }

  /** Reads a rendered change back. */
  function ParseChange(s: string): Option<Change>
  {
    if s == "0%" then Some(Zero)
    else if |s| >= 3 && (s[0] == '+' || s[0] == '-') && s[|s| - 1] == '%' && IsDigits(s[1..|s| - 1]) then
      var n := ParseNat(s[1..|s| - 1]);
      if s[0] == '+' then Some(Plus(n)) else Some(Minus(n))
    else None
  }

  /** Every valid change renders to a text that reads back as itself; in
      particular no change is shown as "+0%" or "-0%". */
  lemma RenderParses(c: Change)
    requires c.Valid()
    ensures ParseChange(Render(c)) == Some(c)
    ensures Render(c) != "+0%" && Render(c) != "-0%"
  {
    match c
    case Zero =>
    case Plus(n) =>
      var s := Render(c);
      assert s[1..|s| - 1] == NatToString(n);
      ParseNatToString(n);
    case Minus(n) =>
      var s := Render(c);
      assert s[1..|s| - 1] == NatToString(n);
      ParseNatToString(n);
  }

  /** The exact change from `prev` to `curr`, in percent of `|prev|`. */
  function RelativeChange(curr: real, prev: real): real
    requires prev != 0.0
  {
    (curr - prev) / Abs(prev) * 100.0
  }

  lemma RelativeChangeSign(curr: real, prev: real)
    requires prev != 0.0
    ensures RelativeChange(curr, prev) > 0.0 <==> curr > prev
    ensures RelativeChange(curr, prev) < 0.0 <==> curr < prev
  {
    var d := curr - prev;
    var b := Abs(prev);
    assert b > 0.0;
    if d > 0.0 {
      assert d / b > 0.0;
    } else if d < 0.0 {
      assert d / b < 0.0;
    } else {
      assert d / b == 0.0;
    }
  }

  /** `percentChange(curr, prev)`. With no previous value the change is
      "+100%" for any non-zero current value and "0%" otherwise; else it is
      the relative change rounded with `Math.round`, and a rounded zero is
      shown unsigned. The `(base || 1)` guard is kept although `base` cannot
      be zero there. */
  function PercentChange(curr: real, prev: real): (c: Change)
    ensures c.Valid()
    ensures prev == 0.0 && curr != 0.0 ==> c == Plus(100)
    ensures prev == 0.0 && curr == 0.0 ==> c == Zero
    ensures prev != 0.0 ==>
      RelativeChange(curr, prev) - 0.5 < c.Signed() as real <= RelativeChange(curr, prev) + 0.5
    ensures prev != 0.0 && c.Plus? ==> curr > prev
    ensures prev != 0.0 && c.Minus? ==> curr < prev
  {
    if prev == 0.0 then (if curr != 0.0 then Plus(100) else Zero)
    else
      var diff := curr - prev;
      var base := Abs(prev);
      var pct := JsRound(diff / (if base != 0.0 then base else 1.0) * 100.0);
      RelativeChangeSign(curr, prev);
      if pct == 0 then Zero
      else if pct > 0 then Plus(pct)
      else Minus(-pct)
  }

  /** Worked examples of the change text. */
  lemma PercentChangeExamples()
    ensures Render(PercentChange(0.0, 0.0)) == "0%"
    ensures Render(PercentChange(5.0, 0.0)) == "+100%"
    ensures Render(PercentChange(0.0, 5.0)) == "-100%"
    ensures Render(PercentChange(150.0, 100.0)) == "+50%"
    ensures Render(PercentChange(50.0, 100.0)) == "-50%"
  {
    JsRoundUnique(-100.0, -100);
    JsRoundUnique(50.0, 50);
    JsRoundUnique(-50.0, -50);
    assert NatToString(100) == "100";
    assert NatToString(50) == "50";
  }

  // ---------------------------------------------------------------------
  // Trend

  datatype Trend = Up | Down

  /** Up when the current value is greater, down otherwise: equal values
      count as down. */
  function TrendOf(curr: real, prev: real): (t: Trend)
    ensures t == Up <==> curr > prev
  {
    if curr > prev then Up else Down
  }

  /** For non-negative figures the sign of the change never contradicts the
      trend arrow: "+n%" goes with up and "-n%" with down. */
  lemma ChangeAgreesWithTrend(curr: real, prev: real)
    requires curr >= 0.0 && prev >= 0.0
    ensures PercentChange(curr, prev).Plus? ==> TrendOf(curr, prev) == Up
    ensures PercentChange(curr, prev).Minus? ==> TrendOf(curr, prev) == Down
  {
  }

  // ---------------------------------------------------------------------
  // Money

  datatype MoneyUnit = NoAmount | Billions | Millions | Thousands | Units

  function UnitSize(u: MoneyUnit): real
  {
    match u
    case Billions => 1_000_000_000.0
    case Millions => 1_000_000.0
    case Thousands => 1_000.0
    case _ => 1.0
  }

  /** The suffix and the scaled magnitude `formatMoneyKES` displays
      ("KSh 0", "KSh 1.25B", "KSh 3.40M", "KSh 7.5K", "KSh 950"). */
  datatype Money = Money(unit: MoneyUnit, scaled: real)

  /** `formatMoneyKES(amount)`: "KSh 0" for a zero amount, otherwise the
      largest of the B / M / K suffixes the amount reaches, or none. The
      scaled value times the unit is the amount; with an M or K suffix it
      lies in [1, 1000). */
  function FormatMoney(amount: real): (f: Money)
    ensures f.unit == NoAmount <==> amount == 0.0
    ensures f.unit == Billions <==> amount >= 1_000_000_000.0
    ensures f.unit == Millions <==> 1_000_000.0 <= amount < 1_000_000_000.0
    ensures f.unit == Thousands <==> 1_000.0 <= amount < 1_000_000.0
    ensures f.unit == Units <==> amount != 0.0 && amount < 1_000.0
    ensures f.scaled * UnitSize(f.unit) == amount
    ensures f.unit == Billions ==> f.scaled >= 1.0
    ensures f.unit == Millions || f.unit == Thousands ==> 1.0 <= f.scaled < 1000.0
  {
    if amount == 0.0 then Money(NoAmount, 0.0)
    else if amount >= 1_000_000_000.0 then Money(Billions, amount / 1_000_000_000.0)
    else if amount >= 1_000_000.0 then Money(Millions, amount / 1_000_000.0)
    else if amount >= 1_000.0 then Money(Thousands, amount / 1_000.0)
    else Money(Units, amount)
  }

  // ---------------------------------------------------------------------
  // Windows and monthly figures

  /** The instants the component derives from "now": midnight today, the
      first of this month and the first of the previous month. */
  datatype Clock = Clock(today: int, dayStart: int, thisMonthStart: int, prevMonthStart: int)

  /** Scores in [first of this month, now]. */
  function ScoredThisMonth(c: Clock): ScoreRow -> bool
  {
    (r: ScoreRow) => c.thisMonthStart <= r.scoredAt <= c.today
  }

  /** Scores in [first of last month, first of this month). */
  function ScoredPrevMonth(c: Clock): ScoreRow -> bool
  {
    (r: ScoreRow) => c.prevMonthStart <= r.scoredAt < c.thisMonthStart
  }

  /** Applications created since the start of this month. */
  function CreatedThisMonth(c: Clock): AppRow -> bool
  {
    (a: AppRow) => a.createdAt >= c.thisMonthStart
  }

  /** Applications created in the previous calendar month. */
  function CreatedPrevMonth(c: Clock): AppRow -> bool
  {
    (a: AppRow) => c.prevMonthStart <= a.createdAt < c.thisMonthStart
  }

  /** Approved applications created at or after `t`. */
  function ApprovedSince(t: int): AppRow -> bool
  {
    (a: AppRow) => a.status == "approved" && a.createdAt >= t
  }

  predicate IsApproved(a: AppRow) { a.status == "approved" }

  predicate IsPending(a: AppRow) { a.status == "pending" }

  predicate HasScore(r: ScoreRow) { r.creditScore.Some? }

  /** Every
      numeric score of the rows, one per row, with no merging of rows of the
      same application. */
  function ScoreValues(rows: seq<ScoreRow>): (xs: seq<int>)
    ensures |xs| == |Filter(rows, HasScore)|
    ensures forall k :: 0 <= k < |xs| ==> xs[k] == Filter(rows, HasScore)[k].creditScore.value
    ensures forall i :: 0 <= i < |rows| && rows[i].creditScore.Some? ==> rows[i].creditScore.value in xs
  {
    if |rows| == 0 then []
    else
      var rest := ScoreValues(rows[1..]);
      assert forall i :: 1 <= i < |rows| ==> rows[i] == rows[1..][i - 1];
      match rows[0].creditScore
      case Some(v) => [v] + rest
      case None => rest
  }

  /** The loan amount as the sums read it: `row.loan_amount ? Number(...) : 0`
      and `Number(null)` are both 0 for a missing amount. */
  function Amount(a: AppRow): real
  {
    a.loanAmount.GetOr(0.0)
  }

  /** The sum of the loan amounts, a missing amount counting 0. */
  function LoanSum(rows: seq<AppRow>): real
  {
    if |rows| == 0 then 0.0 else Amount(rows[0]) + LoanSum(rows[1..])
  }

  /** The sum of the loan amounts of the approved rows. */
  function ApprovedVolume(rows: seq<AppRow>): real
  {
    if |rows| == 0 then 0.0
    else (if rows[0].status == "approved" then Amount(rows[0]) else 0.0) + ApprovedVolume(rows[1..])
  }

  /** The approved volume is the loan sum of the approved rows alone. */
  lemma {:induction false} ApprovedVolumeIsApprovedLoanSum(rows: seq<AppRow>)
    ensures ApprovedVolume(rows) == LoanSum(Filter(rows, IsApproved))
  {
    if |rows| > 0 {
      ApprovedVolumeIsApprovedLoanSum(rows[1..]);
    }
  }

  /** The two score windows never share a row, so no score is counted in
      both months' averages; likewise for the two application windows. */
  lemma WindowsDisjoint(c: Clock, scores: seq<ScoreRow>, apps: seq<AppRow>)
    ensures |Filter(scores, ScoredThisMonth(c))| + |Filter(scores, ScoredPrevMonth(c))| <= |scores|
    ensures |Filter(apps, CreatedThisMonth(c))| + |Filter(apps, CreatedPrevMonth(c))| <= |apps|
  {
    DisjointFilters(scores, ScoredThisMonth(c), ScoredPrevMonth(c));
    DisjointFilters(apps, CreatedThisMonth(c), CreatedPrevMonth(c));
  }

  // ---------------------------------------------------------------------
  // The statistics

  datatype Stats = Stats(
    total: nat,
    approvedToday: nat,
    pending: nat,
    avgScore: real,
    avgScorePrevMonth: real,
    loanVolume: real,
    loanVolumePrevMonth: real,
    approvalsThisMonth: nat,
    totalThisMonth: nat,
    approvalsPrevMonth: nat,
    totalPrevMonth: nat)

  /** The figures `fetchStats` stores. All application queries read the
      snapshot `apps` and both score queries the snapshot `scores`; a
      missing or failed result reads as no rows (`data ?? []`, `count || 0`),
      and a rejected request ends in the catch branch. */
  function ComputeStats(c: Clock, apps: Response<AppRow>, scores: Response<ScoreRow>): (r: Result<Stats>)
    ensures r.Failure? <==> apps.Rejected? || scores.Rejected?
    ensures r.Failure? ==> r.message == "Failed to load stats"
    ensures r.Success? ==> r.value.total == |DataOrEmpty(apps)|
    ensures r.Success? ==> r.value.approvedToday == |Filter(DataOrEmpty(apps), ApprovedSince(c.dayStart))|
    ensures r.Success? ==> r.value.pending == |Filter(DataOrEmpty(apps), IsPending)|
    ensures r.Success? ==> r.value.totalThisMonth == |Filter(DataOrEmpty(apps), CreatedThisMonth(c))|
    ensures r.Success? ==> r.value.totalPrevMonth == |Filter(DataOrEmpty(apps), CreatedPrevMonth(c))|
    ensures r.Success? ==> r.value.approvalsThisMonth <= r.value.totalThisMonth
    ensures r.Success? ==> r.value.approvalsPrevMonth <= r.value.totalPrevMonth
    ensures r.Success? ==> r.value.totalThisMonth + r.value.totalPrevMonth <= r.value.total
    ensures r.Success? ==> r.value.approvedToday + r.value.pending <= r.value.total
    ensures r.Success? ==>
      r.value.loanVolumePrevMonth == LoanSum(Filter(Filter(DataOrEmpty(apps), CreatedPrevMonth(c)), IsApproved))
    ensures r.Success? && (apps.Errored? || apps.NoRows?) ==>
      r.value.total == 0 && r.value.loanVolume == 0.0 && r.value.loanVolumePrevMonth == 0.0
    ensures r.Success? && (scores.Errored? || scores.NoRows?) ==>
      r.value.avgScore == 0.0 && r.value.avgScorePrevMonth == 0.0
  {
    if apps.Rejected? || scores.Rejected? then Failure("Failed to load stats")
    else
      var all := DataOrEmpty(apps);
      var scored := DataOrEmpty(scores);
      var appsThisMonth := Filter(all, CreatedThisMonth(c));
      var appsPrevMonth := Filter(all, CreatedPrevMonth(c));
      WindowsDisjoint(c, scored, all);
      DisjointFilters(all, ApprovedSince(c.dayStart), IsPending);
      ApprovedVolumeIsApprovedLoanSum(appsPrevMonth);
      Success(Stats(
        total := |all|,
        approvedToday := |Filter(all, ApprovedSince(c.dayStart))|,
        pending := |Filter(all, IsPending)|,
        avgScore := MeanRounded(ScoreValues(Filter(scored, ScoredThisMonth(c)))),
        avgScorePrevMonth := MeanRounded(ScoreValues(Filter(scored, ScoredPrevMonth(c)))),
        loanVolume := LoanSum(all),
        loanVolumePrevMonth := ApprovedVolume(appsPrevMonth),
        approvalsThisMonth := |Filter(appsThisMonth, IsApproved)|,
        totalThisMonth := |appsThisMonth|,
        approvalsPrevMonth := |Filter(appsPrevMonth, IsApproved)|,
        totalPrevMonth := |appsPrevMonth|))
  }

  /** Each month's average is the mean of every numeric score in its window
      rounded to two decimals: 0 when there is none, otherwise within 0.005
      of the exact mean and between the window's lowest and highest score. */
  lemma AverageScoreBounds(c: Clock, apps: Response<AppRow>, scores: Response<ScoreRow>)
    requires ComputeStats(c, apps, scores).Success?
    ensures var s := ComputeStats(c, apps, scores).value;
      var xs := ScoreValues(Filter(DataOrEmpty(scores), ScoredThisMonth(c)));
      && (|xs| == 0 ==> s.avgScore == 0.0)
      && IsHundredths(s.avgScore)
      && (|xs| > 0 ==> Min(xs) as real <= s.avgScore <= Max(xs) as real)
      && (|xs| > 0 ==> Mean(xs) - 0.005 < s.avgScore <= Mean(xs) + 0.005)
    ensures var s := ComputeStats(c, apps, scores).value;
      var xs := ScoreValues(Filter(DataOrEmpty(scores), ScoredPrevMonth(c)));
      && (|xs| == 0 ==> s.avgScorePrevMonth == 0.0)
      && IsHundredths(s.avgScorePrevMonth)
      && (|xs| > 0 ==> Min(xs) as real <= s.avgScorePrevMonth <= Max(xs) as real)
      && (|xs| > 0 ==> Mean(xs) - 0.005 < s.avgScorePrevMonth <= Mean(xs) + 0.005)
  {
  }

  /** Approved applications created in the window `w`. */
  function ApprovedIn(w: AppRow -> bool): AppRow -> bool
  {
    (a: AppRow) => w(a) && IsApproved(a)
  }

  /** Each month's approvals are the applications created in that month and
      approved, counted in one pass over all rows. */
  lemma MonthApprovals(c: Clock, apps: Response<AppRow>, scores: Response<ScoreRow>)
    requires ComputeStats(c, apps, scores).Success?
    ensures ComputeStats(c, apps, scores).value.approvalsThisMonth
      == |Filter(DataOrEmpty(apps), ApprovedIn(CreatedThisMonth(c)))|
    ensures ComputeStats(c, apps, scores).value.approvalsPrevMonth
      == |Filter(DataOrEmpty(apps), ApprovedIn(CreatedPrevMonth(c)))|
  {
    FilterFilter(DataOrEmpty(apps), CreatedThisMonth(c), IsApproved, ApprovedIn(CreatedThisMonth(c)));
    FilterFilter(DataOrEmpty(apps), CreatedPrevMonth(c), IsApproved, ApprovedIn(CreatedPrevMonth(c)));
  }

  // ---------------------------------------------------------------------
  // The cards

  datatype Card = Card(title: string, change: Change, trend: Trend)

  /** `a` divided by `t`, or by 1 when `t` is 0. */
  function Ratio(a: nat, t: nat): real
  {
    a as real / (if t != 0 then t else 1) as real
  }

  /** The success rate shown as the card's value: the rounded approval
      percentage of this month, or nothing ("—") without applications. */
  function SuccessRate(s: Stats): (v: Option<int>)
    ensures v.Some? <==> s.totalThisMonth != 0
    ensures v.Some? ==>
      var p := s.approvalsThisMonth as real / s.totalThisMonth as real * 100.0;
      p - 0.5 < v.value as real <= p + 0.5
    ensures v.Some? && s.approvalsThisMonth <= s.totalThisMonth ==> 0 <= v.value <= 100
  {
    if s.totalThisMonth != 0 then
      var pct := (s.approvalsThisMonth as real / s.totalThisMonth as real) * 100.0;
      if s.approvalsThisMonth <= s.totalThisMonth then
        RoundedShareBounds(s.approvalsThisMonth, s.totalThisMonth);
        Some(JsRound(pct))
      else Some(JsRound(pct))
    else None
  }

  /** A month's approval rate as a whole percentage, rounded with `Math.round`. */
  function RatePercent(a: nat, t: nat): real
  {
    JsRound(Ratio(a, t) * 100.0) as real
  }

  /** The success-rate card compares rounded approval percentages, forced
      to 0 on both sides when last month had no applications. */
  function SuccessRateChange(s: Stats): (c: Change)
    ensures s.totalPrevMonth == 0 ==> c == Zero
    ensures s.totalPrevMonth != 0 ==>
      c == PercentChange(RatePercent(s.approvalsThisMonth, s.totalThisMonth),
                         RatePercent(s.approvalsPrevMonth, s.totalPrevMonth))
  {
    PercentChange(
      if s.totalPrevMonth != 0 then RatePercent(s.approvalsThisMonth, s.totalThisMonth) else 0.0,
      if s.totalPrevMonth != 0 then RatePercent(s.approvalsPrevMonth, s.totalPrevMonth) else 0.0)
  }

  function TotalCard(s: Stats): (c: Card)
    ensures c.title == "Total Applications"
    ensures c.trend == Up <==> s.totalThisMonth > s.totalPrevMonth
    ensures s.totalPrevMonth == 0 ==> (c.change == Zero <==> s.totalThisMonth == 0)
    ensures c.change == PercentChange(s.totalThisMonth as real, s.totalPrevMonth as real)
  {
    Card("Total Applications",
         PercentChange(s.totalThisMonth as real, s.totalPrevMonth as real),
         TrendOf(s.totalThisMonth as real, s.totalPrevMonth as real))
  }

  /** Titled "Approved Today", but its change compares this month's
      approvals with last month's. */
  function ApprovedCard(s: Stats): (c: Card)
    ensures c.title == "Approved Today"
    ensures c.trend == Up <==> s.approvalsThisMonth > s.approvalsPrevMonth
    ensures s.approvalsPrevMonth == 0 ==> (c.change == Zero <==> s.approvalsThisMonth == 0)
    ensures c.change == PercentChange(s.approvalsThisMonth as real, s.approvalsPrevMonth as real)
  {
    Card("Approved Today",
         PercentChange(s.approvalsThisMonth as real, s.approvalsPrevMonth as real),
         TrendOf(s.approvalsThisMonth as real, s.approvalsPrevMonth as real))
  }

  /** The pending card's change is fixed: "0%" with an up arrow. */
  function PendingCard(s: Stats): (c: Card)
    ensures c.title == "Pending Review"
    ensures Render(c.change) == "0%" && c.trend == Up
  {
    Card("Pending Review", Zero, Up)
  }

  function AverageCard(s: Stats): (c: Card)
    ensures c.title == "Average Score"
    ensures c.trend == Up <==> s.avgScore > s.avgScorePrevMonth
    ensures s.avgScorePrevMonth == 0.0 ==> (c.change == Zero <==> s.avgScore == 0.0)
    ensures c.change == PercentChange(s.avgScore, s.avgScorePrevMonth)
  {
    Card("Average Score",
         PercentChange(s.avgScore, s.avgScorePrevMonth),
         TrendOf(s.avgScore, s.avgScorePrevMonth))
  }

  /** Compares the all-time loan sum with last month's approved volume. */
  function LoanVolumeCard(s: Stats): (c: Card)
    ensures c.title == "Loan Volume"
    ensures c.trend == Up <==> s.loanVolume > s.loanVolumePrevMonth
    ensures s.loanVolumePrevMonth == 0.0 ==> (c.change == Zero <==> s.loanVolume == 0.0)
    ensures c.change == PercentChange(s.loanVolume, s.loanVolumePrevMonth)
  {
    Card("Loan Volume",
         PercentChange(s.loanVolume, s.loanVolumePrevMonth),
         TrendOf(s.loanVolume, s.loanVolumePrevMonth))
  }

  /** The success card's arrow compares the exact approval ratios, a month
      without applications counting as ratio 0. */
  function SuccessCard(s: Stats): (c: Card)
    ensures c.title == "Success Rate"
    ensures c.trend == Up <==> Ratio(s.approvalsThisMonth, s.totalThisMonth) > Ratio(s.approvalsPrevMonth, s.totalPrevMonth)
    ensures s.totalPrevMonth == 0 ==> c.change == Zero
    ensures c.change == SuccessRateChange(s)
  {
    Card("Success Rate",
         SuccessRateChange(s),
         TrendOf(Ratio(s.approvalsThisMonth, s.totalThisMonth), Ratio(s.approvalsPrevMonth, s.totalPrevMonth)))
  }

  /** The six cards, in display order. */
  function Cards(s: Stats): (cards: seq<Card>)
    ensures |cards| == 6
    ensures cards[0].title == "Total Applications" && cards[1].title == "Approved Today"
    ensures cards[2].title == "Pending Review" && cards[3].title == "Average Score"
    ensures cards[4].title == "Loan Volume" && cards[5].title == "Success Rate"
    ensures forall i, j :: 0 <= i < j < 6 ==> cards[i].title != cards[j].title
  {
    [TotalCard(s), ApprovedCard(s), PendingCard(s), AverageCard(s), LoanVolumeCard(s), SuccessCard(s)]
  }

  /** The average-score card shows "—" for a zero average. */
  function AverageScoreShown(s: Stats): (v: Option<real>)
    ensures v.Some? <==> s.avgScore != 0.0
    ensures v.Some? ==> v.value == s.avgScore
  {
    if s.avgScore != 0.0 then Some(s.avgScore) else None
  }

  /** On every card, for non-negative figures, a "+n%" change comes with an
    up arrow and a "-n%" change with a down arrow; the pending card always
    shows "0%" and up. */
  lemma CardsAgree(s: Stats, i: int)
    requires 0 <= i < 6
    requires s.avgScore >= 0.0 && s.avgScorePrevMonth >= 0.0
    requires s.loanVolume >= 0.0 && s.loanVolumePrevMonth >= 0.0
    ensures Cards(s)[i].change.Valid()
    ensures Cards(s)[i].change.Plus? ==> Cards(s)[i].trend == Up
    ensures Cards(s)[i].change.Minus? ==> Cards(s)[i].trend == Down
    ensures i == 2 ==> Cards(s)[i].change == Zero && Cards(s)[i].trend == Up
  {
    if i == 0 {
      ChangeAgreesWithTrend(s.totalThisMonth as real, s.totalPrevMonth as real);
    } else if i == 1 {
      ChangeAgreesWithTrend(s.approvalsThisMonth as real, s.approvalsPrevMonth as real);
    } else if i == 3 {
      ChangeAgreesWithTrend(s.avgScore, s.avgScorePrevMonth);
    } else if i == 4 {
      ChangeAgreesWithTrend(s.loanVolume, s.loanVolumePrevMonth);
    } else if i == 5 {
      SuccessCardAgrees(s);
    }
  }

  /** The success-rate card compares rounded percentages but draws its arrow
      from the unrounded ratios; rounding is monotone, so the two never
      point different ways. */
  lemma SuccessCardAgrees(s: Stats)
    ensures SuccessCard(s).change.Valid()
    ensures SuccessCard(s).change.Plus? ==> SuccessCard(s).trend == Up
    ensures SuccessCard(s).change.Minus? ==> SuccessCard(s).trend == Down
  {
    var rThis := Ratio(s.approvalsThisMonth, s.totalThisMonth);
    var rPrev := Ratio(s.approvalsPrevMonth, s.totalPrevMonth);
    var c := SuccessRateChange(s);
    if s.totalPrevMonth != 0 {
      var kThis := JsRound(rThis * 100.0);
      var kPrev := JsRound(rPrev * 100.0);
      assert c == PercentChange(kThis as real, kPrev as real);
      if c.Plus? && rThis <= rPrev {
        JsRoundMonotone(rThis * 100.0, rPrev * 100.0);
      }
      if c.Minus? && rThis >= rPrev {
        JsRoundMonotone(rPrev * 100.0, rThis * 100.0);
      }
    }
  }

  /** With nothing approved last month and some loan amount on record, the
      loan-volume card shows "+100%" and up, whatever this month did. */
  lemma LoanVolumeCardUsesAllTimeSum(c: Clock, apps: seq<AppRow>, scores: Response<ScoreRow>)
    requires !scores.Rejected?
    requires LoanSum(apps) > 0.0
    requires forall i :: 0 <= i < |apps| && CreatedPrevMonth(c)(apps[i]) ==> !IsApproved(apps[i])
    ensures ComputeStats(c, Rows(apps), scores).Success?
    ensures LoanVolumeCard(ComputeStats(c, Rows(apps), scores).value) == Card("Loan Volume", Plus(100), Up)
  {
    var s := ComputeStats(c, Rows(apps), scores).value;
    NoneApproved(Filter(apps, CreatedPrevMonth(c)));
    assert s.loanVolumePrevMonth == 0.0;
    LoanVolumeOfRows(c, apps, scores);
  }

  /** The loan volume shown is the sum of every row's amount. */
  lemma LoanVolumeOfRows(c: Clock, apps: seq<AppRow>, scores: Response<ScoreRow>)
    requires !scores.Rejected?
    ensures ComputeStats(c, Rows(apps), scores).Success?
    ensures ComputeStats(c, Rows(apps), scores).value.loanVolume == LoanSum(apps)
  {
  }

  lemma {:induction false} NoneApproved(rows: seq<AppRow>)
    requires forall i :: 0 <= i < |rows| ==> !IsApproved(rows[i])
    ensures Filter(rows, IsApproved) == []
  {
    if |rows| > 0 {
      NoneApproved(rows[1..]);
    }
  }
}

=== FILE: text.dfy ===
/** The string operations the dashboard uses to build labels: `split(" ")`,
    first characters of words, ASCII `toUpperCase`, `trim`, capitalisation
    and decimal rendering of whole numbers. */
module Text {
  import opened Seqs

  // ---------------------------------------------------------------------
  // Words and their first characters

  /** `s.split(" ")`: the pieces between single spaces. Runs of spaces, and
      spaces at either end, yield empty pieces; the empty string yields one
      empty piece. */
  function Split(s: string): (ws: seq<string>)
    ensures |ws| >= 1
    ensures |ws| - 1 == |Filter(s, IsSpace)|
    ensures forall k :: 0 <= k < |ws| ==> ' ' !in ws[k]
  {
    if |s| == 0 then [""]
    else
      var rest := Split(s[1..]);
      if s[0] == ' ' then [""] + rest
      else [[s[0]] + rest[0]] + rest[1..]
  }

  predicate IsSpace(c: char) { c == ' ' }

  /** The pieces joined back with single spaces: the inverse of `Split`. */
  function JoinSpaces(ws: seq<string>): string
    requires |ws| >= 1
  {
    if |ws| == 1 then ws[0] else ws[0] + " " + JoinSpaces(ws[1..])
  }

  /** Splitting loses nothing: joining the pieces with single spaces gives
      the text back. */
  lemma {:induction false} SplitJoin(s: string)
    ensures JoinSpaces(Split(s)) == s
  {
    if |s| > 0 {
      var rest := Split(s[1..]);
      SplitJoin(s[1..]);
      if s[0] == ' ' {
        assert Split(s) == [""] + rest;
        assert ([""] + rest)[1..] == rest;
      } else {
        var ws := Split(s);
        assert ws == [[s[0]] + rest[0]] + rest[1..];
        if |rest| == 1 {
          assert JoinSpaces(rest) == rest[0];
        } else {
          assert ws[1..] == rest[1..];
          assert JoinSpaces(rest) == rest[0] + " " + JoinSpaces(rest[1..]);
        }
      }
    }
  }

  /** Reference definition of the initials of a text: the characters that
      are not a space and that start the text or follow a space, in order.
      `atStart` says whether the character before `s` was a space. */
  function WordStartsFrom(s: string, atStart: bool): (r: string)
    ensures |r| <= |s|
    ensures forall i :: 0 <= i < |r| ==> r[i] != ' '
  {
    if |s| == 0 then ""
    else (if atStart && s[0] != ' ' then [s[0]] else "") + WordStartsFrom(s[1..], s[0] == ' ')
  }

  function WordStarts(s: string): string
  {
    WordStartsFrom(s, true)
  }

  predicate IsNonEmpty(w: string) { |w| > 0 }

  /** The first characters of words that are all non-empty, joined. */
  function Heads(ws: seq<string>): (r: string)
    requires forall i :: 0 <= i < |ws| ==> |ws[i]| > 0
    ensures |r| == |ws|
  {
    if |ws| == 0 then "" else [ws[0][0]] + Heads(ws[1..])
  }

  /** The first characters of any words, joined: an empty word has no first
      character, and joining renders the resulting `undefined` as "". */
  function HeadsOrEmpty(ws: seq<string>): (r: string)
    ensures |r| <= |ws|
  {
    if |ws| == 0 then ""
    else (if |ws[0]| > 0 then [ws[0][0]] else "") + HeadsOrEmpty(ws[1..])
  }

  lemma {:induction false} HeadsOrEmptyAppend(a: seq<string>, b: seq<string>)
    ensures HeadsOrEmpty(a + b) == HeadsOrEmpty(a) + HeadsOrEmpty(b)
  {
    if |a| == 0 {
      assert a + b == b;
    } else {
      assert (a + b)[1..] == a[1..] + b;
      HeadsOrEmptyAppend(a[1..], b);
    }
  }

  /** Dropping the empty words first changes nothing: both spellings of
      "first characters of the words" agree. */
  lemma {:induction false} HeadsOfNonEmpty(ws: seq<string>)
    ensures Heads(Filter(ws, IsNonEmpty)) == HeadsOrEmpty(ws)
  {
    if |ws| > 0 {
      HeadsOfNonEmpty(ws[1..]);
    }
  }

  /** The heads of the pieces of `split(" ")` are exactly the word starts of
      the text; the pieces after the first one account for the text after
      its first character when that character is not a space. */
  lemma {:induction false} SplitHeads(s: string)
    ensures HeadsOrEmpty(Split(s)) == WordStartsFrom(s, true)
    ensures HeadsOrEmpty(Split(s)[1..]) == WordStartsFrom(s, false)
  {
    if |s| > 0 {
      SplitHeads(s[1..]);
      var rest := Split(s[1..]);
      if s[0] == ' ' {
        assert Split(s) == [""] + rest;
        assert Split(s)[1..] == rest;
        HeadsOrEmptyAppend([""], rest);
      } else {
        var first := [s[0]] + rest[0];
        assert Split(s) == [first] + rest[1..];
        HeadsOrEmptyAppend([first], rest[1..]);
        assert HeadsOrEmpty([first]) == [s[0]];
        assert Split(s)[1..] == rest[1..];
      }
    }
  }

  /** A text without spaces has one word start, its first character. */
  lemma {:induction false} NoSpaceStarts(w: string, atStart: bool)
    requires |w| > 0
    requires forall i :: 0 <= i < |w| ==> w[i] != ' '
    ensures WordStartsFrom(w, atStart) == if atStart then [w[0]] else ""
  {
    if |w| > 1 {
      NoSpaceStarts(w[1..], false);
    } else {
      assert w[1..] == "";
    }
  }

  lemma {:induction false} WordStartsAppend(a: string, b: string, atStart: bool)
    requires |a| > 0
    ensures WordStartsFrom(a + b, atStart) ==
      WordStartsFrom(a, atStart) + WordStartsFrom(b, a[|a| - 1] == ' ')
  {
    assert (a + b)[1..] == a[1..] + b;
    if |a| > 1 {
      WordStartsAppend(a[1..], b, a[0] == ' ');
    }
  }

  /** Two space-free words joined by one space start with their first
      characters. */
  lemma TwoWordStarts(first: string, last: string)
    requires |first| > 0 && |last| > 0
    requires forall i :: 0 <= i < |first| ==> first[i] != ' '
    requires forall i :: 0 <= i < |last| ==> last[i] != ' '
    ensures WordStarts(first + " " + last) == [first[0], last[0]]
  {
    NoSpaceStarts(first, true);
    NoSpaceStarts(last, true);
    assert first + " " + last == first + (" " + last);
    WordStartsAppend(first, " " + last, true);
    assert (" " + last)[1..] == last;
    assert WordStartsFrom(" " + last, false) == [last[0]];
  }

  /** The first characters of the non-empty space-separated words of `s`. */
  function InitialsOfWords(s: string): (r: string)
    ensures r == WordStarts(s)
  {
    var words := Filter(Split(s), IsNonEmpty);
    HeadsOfNonEmpty(Split(s));
    SplitHeads(s);
    Heads(words)
  }

  // ---------------------------------------------------------------------
  // Upper case

  /** `toUpperCase` on one character; only the ASCII letters are mapped. */
  function UpperChar(c: char): (u: char)
    ensures 'a' <= c <= 'z' ==> u as int == c as int - 32
    ensures !('a' <= c <= 'z') ==> u == c
    ensures !('a' <= u <= 'z')
  {
    if 'a' <= c <= 'z' then (c as int - 32) as char else c
  }

  function Upper(s: string): (r: string)
    ensures |r| == |s|
    ensures forall i :: 0 <= i < |s| ==> r[i] == UpperChar(s[i])
  {
    if |s| == 0 then "" else [UpperChar(s[0])] + Upper(s[1..])
  }

  /** The first character upper-cased, the rest unchanged; the empty string
      stays empty. */
  function Capitalize(s: string): (r: string)
    ensures |r| == |s|
    ensures |s| > 0 ==> r[0] == UpperChar(s[0]) && r[1..] == s[1..]
  {
    if |s| == 0 then "" else [UpperChar(s[0])] + s[1..]
  }

  /** Capitalising a label twice is the same as capitalising it once. */
  lemma CapitalizeIdempotent(s: string)
    ensures Capitalize(Capitalize(s)) == Capitalize(s)
  {
  }

  // ---------------------------------------------------------------------
  // trim

  /** The characters `String.prototype.trim` removes: white space (tab,
      vertical tab, form feed, space, no-break space, byte-order mark and the
      Unicode space separators) and line terminators. */
  predicate IsWhitespace(c: char)
  {
    || c == '\t' || c == '\n' || c == '\U{000B}' || c == '\U{000C}' || c == '\r'
    || c == ' ' || c == '\U{00A0}' || c == '\U{1680}' || ('\U{2000}' <= c <= '\U{200A}')
    || c == '\U{2028}' || c == '\U{2029}' || c == '\U{202F}' || c == '\U{205F}'
    || c == '\U{3000}' || c == '\U{FEFF}'
  }

  /** No white space at either end. */
  predicate IsTrimmed(s: string)
  {
    |s| == 0 || (!IsWhitespace(s[0]) && !IsWhitespace(s[|s| - 1]))
  }

  /** How many white-space characters `s` starts with. */
  function LeadingWhitespace(s: string): (k: nat)
    ensures k <= |s|
    ensures forall i :: 0 <= i < k ==> IsWhitespace(s[i])
    ensures k < |s| ==> !IsWhitespace(s[k])
  {
    if |s| > 0 && IsWhitespace(s[0]) then 1 + LeadingWhitespace(s[1..]) else 0
  }

  function TrimEnd(s: string): (r: string)
    ensures |r| <= |s| && r == s[..|r|]
    ensures forall i :: |r| <= i < |s| ==> IsWhitespace(s[i])
    ensures |r| > 0 ==> !IsWhitespace(r[|r| - 1])
  {
    if |s| > 0 && IsWhitespace(s[|s| - 1]) then TrimEnd(s[..|s| - 1]) else s
  }

  /** `s.trim()`: the part of `s` between its leading and its trailing white
      space; it starts and ends with a non-white-space character. */
  function Trim(s: string): (r: string)
    ensures IsTrimmed(r)
    ensures LeadingWhitespace(s) + |r| <= |s|
    ensures r == s[LeadingWhitespace(s)..LeadingWhitespace(s) + |r|]
    ensures forall i :: LeadingWhitespace(s) + |r| <= i < |s| ==> IsWhitespace(s[i])
  {
    var k := LeadingWhitespace(s);
    var r := TrimEnd(s[k..]);
    assert forall i :: k + |r| <= i < |s| ==> s[i] == s[k..][i - k];
    assert |r| > 0 ==> r[0] == s[k] && !IsWhitespace(r[0]);
    r
  }

  /** A text without white space at its ends is its own trim. */
  lemma TrimOfTrimmed(s: string)
    requires IsTrimmed(s)
    ensures Trim(s) == s
  {
  }

  lemma TrimIdempotent(s: string)
    ensures Trim(Trim(s)) == Trim(s)
  {
    TrimOfTrimmed(Trim(s));
  }

  /** Joining two trimmed parts with a space and trimming the result gives
      the parts joined by one space, or the one non-empty part alone. */
  lemma TrimJoined(a: string, b: string)
    requires IsTrimmed(a) && IsTrimmed(b)
    ensures |a| > 0 && |b| > 0 ==> Trim(a + " " + b) == a + " " + b
    ensures |a| > 0 && |b| == 0 ==> Trim(a + " " + b) == a
    ensures |a| == 0 && |b| > 0 ==> Trim(a + " " + b) == b
    ensures |a| == 0 && |b| == 0 ==> Trim(a + " " + b) == ""
  {
    var s := a + " " + b;
    if |a| > 0 && |b| > 0 {
      TrimOfTrimmed(s);
    } else if |a| > 0 {
      assert s == a + " ";
      assert LeadingWhitespace(s) == 0;
      assert s[0..] == s;
      assert s[..|s| - 1] == a;
      assert TrimEnd(a) == a;
    } else if |b| > 0 {
      assert s == " " + b;
      assert s[1..] == b;
      assert LeadingWhitespace(s) == 1;
      assert TrimEnd(b) == b;
    } else {
      assert s == " ";
      assert LeadingWhitespace(s) == 1;
    }
  }

  // ---------------------------------------------------------------------
  // Decimal numerals

  function DigitChar(d: nat): (c: char)
    requires d < 10
    ensures '0' <= c <= '9'
    ensures (c as int) - ('0' as int) == d
  {
    ('0' as int + d) as char
  }

  predicate IsDigits(s: string)
  {
    forall i :: 0 <= i < |s| ==> '0' <= s[i] <= '9'
  }

  /** The decimal numeral of `n`, as `${n}` renders it: at least one digit and
      no leading zero. */
  function NatToString(n: nat): (s: string)
    ensures |s| >= 1 && IsDigits(s)
    ensures s[0] == '0' <==> n == 0
    ensures n == 0 ==> s == "0"
  {
    if n < 10 then [DigitChar(n)]
    else NatToString(n / 10) + [DigitChar(n % 10)]
  }

  /** The value of a numeral. */
  function ParseNat(s: string): nat
    requires IsDigits(s)
  {
    if |s| == 0 then 0
    else ParseNat(s[..|s| - 1]) * 10 + ((s[|s| - 1] as int) - ('0' as int))
  }

  /** Reading back a rendered number gives the number. */
  lemma {:induction false} ParseNatToString(n: nat)
    ensures ParseNat(NatToString(n)) == n
  {
    var s := NatToString(n);
    if n >= 10 {
      ParseNatToString(n / 10);
      assert s[..|s| - 1] == NatToString(n / 10);
    }
  }

  /** Different numbers have different numerals. */
  lemma NatToStringInjective(m: nat, n: nat)
    requires NatToString(m) == NatToString(n)
    ensures m == n
  {
    ParseNatToString(m);
    ParseNatToString(n);
  }

  /** `${n}` for any whole number: a minus sign before the numeral of a
      negative number. */
  function IntToString(n: int): (s: string)
    ensures |s| >= 1
    ensures s[0] == '-' <==> n < 0
    ensures n >= 0 ==> s == NatToString(n)
    ensures n < 0 ==> s[1..] == NatToString(-n)
  {
    if n >= 0 then NatToString(n) else "-" + NatToString(-n)
  }

  lemma IntToStringInjective(m: int, n: int)
    requires IntToString(m) == IntToString(n)
    ensures m == n
  {
    if m >= 0 && n >= 0 {
      NatToStringInjective(m, n);
    } else if m < 0 && n < 0 {
      NatToStringInjective(-m, -n);
    }
  }
}
